=== FILE: README.md ===
# HomeHunt Data Collector — a Dafny model of the scraper and its web front end

HomeHunt Data Collector has two programs. `main.py` is a Selenium scraper.
It opens an Apartments.com results page, picks the listing containers, and
reads five fields from each container: price, address, beds, baths and link.
It keeps the listings that have at least two useful fields, and it prints a
progress line for every container. `app.py` is a small Flask server. It
starts the scraper as a subprocess, reads the scraper's merged output one line
at a time, and turns those lines into a shared progress record that the
browser polls: status, counter pair, message, listings, Google Sheets link
and a completion flag. When the process exits, it gives the verdict.

The model has these modules:

- `Extraction` — the scraper's selection, extraction and gate loop.
  - Container choice: the first CSS selector that finds cards, cut to 15. Otherwise the fallback scan over the first 100 divs, keeping at most 10.
  - The price, address and beds strategy lists. Each accepts the first strategy whose first element passes the field's test.
  - The bathroom text: a regular-expression match, or else an estimate from the bedroom text through the table studio/1/2/3/4.
  - The link: the first strategy with a non-empty `href`, made absolute.
  - The two-filled-fields gate, and the lines printed along the way.
- `WorkerLog` — the progress lines as values, and their rendering as the reader receives them.
- `Interpreter` — the web app's reading loop.
  - The line counter with its debugging messages.
  - The accumulator for the sheet link.
  - The chain of recognisers; the first one that matches acts.
- `ProgressState` — the shared record and its starting value.
- `Session` — one session: the start-request guard, the reset, the launch, and the verdict after the process exits.
- `Replay` — the two programs together. What the scraper prints for its kept listings is exactly what the web app reads back.
- `Text`, `Seqs`, `Wrappers`, `Listings` — Python's string operations (`strip`, `split`, `replace`, `lower`, `int`, `str`, `in`), sequence helpers, `Option`, and the listing record.

What the browser returns is data. A CSS or XPath lookup is given as its list
of matches, or as "raised". The result of each bathroom `re.search` is given
as its matched text. Whether the process started, how it exited and what the
newest CSV file holds are parameters of the session. `readline()` results
are a sequence of strings.

Some behaviours of the code are easy to miss; the model follows them:

- A sheet link printed on the lines after a bare "View your sheet:" marker is never collected (`Interpreter.SplitLinkIgnored`). The marker starts an empty link, and only a non-empty link that does not yet start with "http" is extended.
- A link printed on the marker line is committed only when the next non-marker line arrives (`Interpreter.LinkCommitDelayed`). If the marker line is the last line, its link is lost.
- The link search ends at the first strategy whose element has a non-empty `href`, even when that `href` is neither absolute nor site-relative (`Extraction.ExtractUrlFirst`).
- Every strategy tests only the first element its lookup finds (`Extraction.FieldValue`).
- The reset keeps the sheet link from an earlier session (`Session.Reset`).
- The processing line "🏠 Processing property I/N..." sets only the current index: the ellipsis is removed from the first half alone, so `int("N...")` raises (`Interpreter.Effect`, `Replay.ProcessingLineReplays`; see Findings).
- A non-zero exit code ends the session with the message of the outer exception handler, because the error stream is merged into the output and cannot be read (`Session.Worker`; see Findings).
- The reset first sets the message "Setting up Chrome browser...", then immediately replaces it with "Starting main.py with command: ..." (app.py:33 and app.py:45). The model keeps only the second value.

## Model

| member | source | states |
|---|---|---|
| Extraction.SelectCards | main.py:182-192 | no cards exactly when every selector's lookup came back empty or raised; never more than 15 cards |
| Extraction.SelectCardsFirst | main.py:183-189 | the first selector that finds cards decides: its first 15 cards, in document order |
| Extraction.SelectCardsIgnoresLater | main.py:183-189 | selectors after the first one that finds cards cannot change the outcome |
| Extraction.FallbackScan | main.py:194-202 | the fallback keeps, in order, the listing-like divs among the first 100, stopping at 10; each one has a `$` and a bed/bath/br word |
| Extraction.Containers | main.py:182-202 | the selected cards when a selector found any, otherwise at most 10 listing-like divs; never more than 15 |
| Extraction.FindContainers | main.py:182-202 | the fallback announcement is printed exactly when no selector found cards; otherwise the printed line names the first selector that found cards and how many it found; the containers are those the selection or the fallback scan chose |
| Extraction.ExtractCard | main.py:210-338 | each of price, address and beds is the placeholder or a text its field's test accepts; found beds always bring a bathroom text; the link is the placeholder or starts with "http" |
| Extraction.FieldValue | main.py:222-230 | a field is the placeholder when no strategy's first element passes, and otherwise a text the field's test accepts |
| Extraction.FieldValueFirst | main.py:245-251 | the first strategy whose first element passes decides the field |
| Extraction.FieldFound | main.py:266-274 | with a test that rejects the placeholder, a field reads "Not found" exactly when no strategy passed; otherwise it is stripped and accepted |
| Extraction.NotFoundNeverAccepted | main.py:226-270 | the placeholder "Not found" passes none of the price, address and bedroom tests |
| Extraction.DeriveBaths | main.py:301-317 | the estimate is a row of the table or "2+ baths", never the placeholder, and starts with 1 or 2 |
| Extraction.DeriveBathsFirstKey | main.py:304-313 | the first table key that occurs in the lower-cased bedroom text decides the estimate |
| Extraction.DeriveBathsDefault | main.py:314-315 | with no key in the bedroom text the estimate is "2+ baths" |
| Extraction.ExtractBaths | main.py:278-317 | found bedroom text always brings a bathroom text |
| Extraction.BathsFromFirstMatch | main.py:292-296 | the first bathroom pattern that matches decides, whatever the beds are |
| Extraction.BathsWithoutMatch | main.py:300-317 | with no match, baths is the estimate from found beds, and the placeholder otherwise |
| Extraction.Absolutize | main.py:331-335 | an absolute link is kept; a site-relative one gets the site origin; anything else leaves the placeholder |
| Extraction.ExtractUrl | main.py:320-338 | the link is the placeholder or starts with "http"; it is the placeholder when no strategy has an `href` |
| Extraction.ExtractUrlFirst | main.py:327-338 | the first strategy with a non-empty `href` decides the link, even when that `href` cannot be made absolute |
| Extraction.FilledCountAtLeastTwo | main.py:341-344 | the count of useful fields reaches two exactly when two different fields are useful |
| Extraction.CompleteIffTwoFilled | main.py:340-346 | a listing passes the gate exactly when two of its five fields are neither "Not found" nor blank |
| Extraction.BedsFoundPassesGate | main.py:300-346 | a container whose bedroom text is found always passes the gate, because it always gets a bathroom text too |
| Extraction.Kept | main.py:346-355 | every kept listing passes the gate and comes from a container, and every container whose listing passes the gate is kept |
| Extraction.VerdictLogAppend | main.py:207-358 | the progress lines of two runs of containers are those of the first run followed by those of the second, renumbered |
| Extraction.GateAll | main.py:207-358 | the loop keeps exactly the listings that pass the gate, and prints for each container a blank line, its processing line and a kept or skipped line |
| Extraction.Scrape | main.py:182-358 | the scrape returns the kept listings of the chosen containers and prints the whole extraction log; at most 15 listings, all passing the gate |
| Seqs.FilterUpTo | main.py:197-202 | walking in order and stopping after `want` kept elements keeps the first `want` elements that pass |
| Text.ParseIntDigits | app.py:113-114 | `int` of a word made only of digits is that word's decimal value |
| Text.ParseIntToString | app.py:122-124 | `int(str(n)) == n`, so a container count printed by the scraper is read back unchanged |
| Text.ParseIntRejects | app.py:135-136 | `int` raises on any text holding a character other than digits, signs, underscores and whitespace |
| Text.StripAt | app.py:78 | `output.strip()` only removes whitespace, and only from the two ends: the stripped line sits inside the output with nothing but whitespace around it |
| Text.StripPadded | app.py:78 | whitespace added on either side of a line, such as the newline `readline()` keeps, does not change what `strip()` returns |
| Text.SplitJoin | app.py:144 | joining the pieces of `line.split(sep)` with `sep` gives back the line: splitting at the spaced bar loses no character |
| Text.SplitPieces | app.py:144 | no piece of `line.split(sep)` contains the separator, so each piece of a listing line is one whole field |
| Interpreter.RecordNeedsDollar | app.py:141 | a line without `$` is never taken by the listing recogniser |
| Interpreter.ProcessingNeverRecords | app.py:127-141 | a line containing "Processing property" never adds a listing, whatever else it contains |
| Interpreter.ClassifyFirstMatch | app.py:102-176 | the recogniser chosen for a line matches it, and no recogniser earlier in the chain does; `Matches` takes the chain's conditions apart, so the content is the chain order |
| Interpreter.Announce | app.py:83-86 | the first line sets the message "Process started! First line: " followed by its first 50 characters and "..."; after that, every fifth line sets "Processing... (line n)" and other lines change nothing; only the message ever changes |
| Interpreter.CollectUrl | app.py:88-99 | a marker line never touches the record and starts a link from its own characters; otherwise a collected "http" text is committed and the accumulator emptied, a started link that is not yet "http" is extended by a line containing "http", and anything else changes nothing |
| Interpreter.MarkerLineHolds | app.py:89-92 | a marker line followed by a link holds back exactly that link, without touching the record |
| Interpreter.LinkCommitDelayed | app.py:89-99 | a link printed on the marker line is committed by the next non-marker line, whatever that line says, and by nothing earlier |
| Interpreter.SplitLinkIgnored | app.py:89-99 | after a bare marker line, the next two non-marker lines leave the record unchanged and collect nothing |
| Interpreter.FirstDigitWord | app.py:111-116 | no word is found exactly when no whitespace-separated word is all digits; otherwise the word is the first one that is |
| Interpreter.FirstSlashWord | app.py:130-133 | no word is found exactly when no whitespace-separated word holds a slash; otherwise the word is the first one that does |
| Interpreter.FoundEffect | app.py:108-118 | without a number word nothing changes; otherwise the total becomes that number and the message quotes it |
| Interpreter.ContainerEffect | app.py:119-126 | when `int` of the stripped text after the last colon raises, nothing changes; otherwise the total becomes that number and the message shows it |
| Interpreter.ProcessingEffectAsWritten | app.py:127-140 | as written: without a slash word, or when the first slash word does not split into exactly two halves, nothing changes; otherwise the update is `ApplyCounter` of the first half with its ellipsis removed and the raw second half, so current is set first and total and message change only when both halves convert |
| Interpreter.ProcessingEffect | app.py:127-140 | with the ellipsis removed from both halves: without a slash word, or when the first slash word does not split into exactly two halves, nothing changes; otherwise the update is `ApplyCounter` of the two cleaned halves, so current is set first and total and message change only when both halves convert |
| Interpreter.ApplyCounter | app.py:133-137 | a failed `int` of the first half changes nothing; a failed second half leaves only `current` set; otherwise current, total and message are all set |
| Interpreter.PricePart | app.py:146 | a first field without ": " is the price as it stands; the price is never longer than the field |
| Interpreter.PriceAfterFirstSeparator | app.py:146 | with a ": " in the first field, the price is the text after the first one |
| Interpreter.RecordFields | app.py:144-157 | a listing is rebuilt exactly when the line has at least four fields separated by a spaced bar: the price from the first field, the address, beds and baths from the next three, and the placeholder link |
| Interpreter.RecordEffect | app.py:141-160 | the listing recogniser appends the rebuilt listing, or changes nothing |
| Interpreter.ExtractedEffect | app.py:161-170 | without a number word nothing changes; otherwise only the message changes, quoting the first number word |
| Interpreter.Effect | app.py:101-176 | the recogniser chosen acts as written: the processing line goes through the as-written counter update; no recogniser touches status, completion or link; only the listing recogniser touches the listings; only the three counting recognisers touch current and total |
| Interpreter.Step | app.py:72-176 | an empty read changes nothing; a non-empty one is counted; status and completion never change; the link changes only to a collected "http" text; listings grow only through the listing recogniser; current and total change only through the three counting recognisers |
| Interpreter.Gain | app.py:141-160 | one read adds at most one listing, and none unless the listing recogniser takes it |
| Interpreter.RunAppend | app.py:72-80 | reading two batches of output is reading the first and then the second |
| Interpreter.RunAppendOnly | app.py:72-176 | reading never changes the status or the completion flag; listings only grow; the line counter counts the non-empty reads |
| Interpreter.RunGathers | app.py:72-160 | reading appends exactly the listings the recognised lines carry, in the order read |
| Interpreter.GatheredAppend | app.py:72-160 | what two batches add is what the first adds followed by what the second adds |
| Interpreter.RunSheetUrl | app.py:93-99 | once set, the link stays set, and it only ever becomes a text starting with "http" |
| Session.StartRequest | app.py:258-259 | a start request is refused exactly when a session is running |
| Session.Reset | app.py:32-45 | the reset sets the record running, zeroes the counters, empties the listings, clears completion and keeps the link |
| Session.Launch | app.py:48-65 | a started process only changes the message; a failed start ends the session in error with the listings untouched |
| Session.WithDefaultLink | app.py:201-203 | afterwards a non-empty link is always set; a non-empty link is kept; nothing else changes |
| Session.Succeeded | app.py:196-235 | a clean exit always completes; listings read from the output are kept and counted in the message; the CSV fallback only adds; the default link is filled in exactly on the branches that report listings (from the output or a read CSV file), and the link is untouched otherwise |
| Session.FinishAsWritten | app.py:186-246 | as written, the verdict completes the session and succeeds exactly on a zero exit code; a timeout reports the timeout; any non-zero exit ends with the failed-attribute message from the outer handler; failures keep listings and link |
| Session.Finish | app.py:186-241 | the verdict completes the session; it succeeds exactly on a zero exit code; a failure or timeout keeps listings and link |
| Session.FinishDiffersOnFailure | app.py:236-246 | the code as written and the intended verdict differ exactly in the message of a non-zero exit |
| Session.Worker | app.py:27-246 | as written: the record ends completed, and completed exactly when the process started and exited with 0; a failed start reports its reason with no listings; a non-zero exit reports the failed attribute lookup; a timeout reports the timeout; on failure the listings are those read from the output |
| Session.IntendedWorker | app.py:27-241 | with the evidently intended verdict: completed exactly when the process started and exited with 0, and a non-zero exit reports "Error occurred during scraping" |
| Session.WorkerDiffersOnFailure | app.py:236-246 | the worker as written and as intended differ exactly in the message of a started process's non-zero exit |
| Session.SingleFlight | app.py:258-259 | every start request made while the worker reads output is refused, and the next one after it finishes is accepted |
| Session.CleanExitShowsLink | app.py:196-227 | a clean exit after which the CSV fallback reads a file always shows a non-empty link |
| Session.CleanExitReportsListings | app.py:196-200 | a clean exit after output that carried listings reports exactly those listings and counts them in the message |
| Replay.PriceReadBack | app.py:146 | the price part of a listing line is the listing's price, whatever the running count |
| Replay.QuietLine | app.py:141 | a progress line without `$` adds no listing |
| Replay.BlockerAbsent | app.py:102-127 | no phrase of an earlier recogniser appears in a listing line unless it appears in one of the listing's fields |
| Replay.ListingClassified | app.py:102-141 | the line of a printable listing is taken by the listing recogniser |
| Replay.ListingLineReplays | app.py:141-158 | the line printed for a kept listing adds exactly that listing, with the placeholder link |
| Replay.ProcessingCounter | app.py:127-140 | with the ellipsis removed from both halves, the processing line sets current to i, total to n and the message to "Extracting property i/n..." |
| Replay.ProcessingCounterAsWritten | app.py:133-137 | as written, the processing line sets only `current`: the total and the message are unchanged |
| Replay.ProcessingLineReplays | main.py:207-208 | as the web app is written, the processing line the scraper prints sets the current index to that container's number and leaves the total, the message set by the line counter and the listings as they were |
| Replay.ProcessingEffectOn | app.py:127-137 | the recogniser chain sends the scraper's processing line to the processing recogniser, which as written sets only the current index |
| Replay.FoundLineSetsTotal | app.py:108-118 | the found line the scraper prints (main.py:187) sets the total to the number of cards the selector matched and the message "Found n properties! Extracting data..." |
| Replay.ContainerLineSetsTotal | app.py:119-126 | the containers line the scraper prints (main.py:204) sets the total to the number of containers and the message "Processing n properties..." |
| Replay.ContainerClassified | app.py:102-119 | the containers line is taken by the container-count recogniser: each earlier recogniser's phrase is absent from it |
| Replay.ContainerLineReplays | main.py:204 | reading the containers line sets the web app's total to the number of containers and its message to "Processing n properties...", leaving the index and the listings as they were |
| Replay.ExtractedLineMessage | app.py:161-170 | the closing line the scraper prints (main.py:365) sets the message "Successfully extracted n properties!" with the number of kept listings |
| Replay.RecordedVerdicts | main.py:346-358 | the listings the progress lines announce are exactly those that pass the gate |
| Replay.VerdictsFindNothing | main.py:356-358 | the per-container lines never include a "Found ... using selector" line |
| Replay.ExtractionLogRecords | main.py:182-358 | the listings announced in the whole extraction log are exactly the kept listings |
| Replay.ExtractionLogQuiet | main.py:187-208 | every line of the extraction log other than a listing line is free of `$` |
| Replay.ReplayLines | app.py:102-176 | reading a rendered log adds exactly the announced listings, read back, in order |
| Replay.ScrapeReplays | main.py:355-356 | reading the extraction log appends exactly the kept listings, read back, in container order |
| Replay.GatheredAround | app.py:72-160 | lines that add nothing around a log do not change what the log adds |
| Replay.SessionReportsKept | app.py:196-200 | when at least one listing is kept, a session whose output carries the extraction log and exits cleanly reports exactly the kept listings and counts them in its message (with none kept, the code loads the newest CSV file instead, app.py:204-227) |

## Left out

- Selenium, Chrome, page loading and scrolling, Google Sheets upload, CSV writing and reading, and the Flask routes other than the start guard. These are I/O. Their answers are inputs of the model.
- Threading. The start guard and the reset happen in different threads, so two requests can both pass the guard before either reset. The model treats one session at a time.
- The "Unicode error reading output" and "Error reading output" branches of the reading loop (app.py:177-184). They are triggered by decoding failures of the pipe, which the model does not represent.
- Per-container exceptions in the scraper (main.py:360-362) and the "Selector ... failed" lines (main.py:190-192). A container-selector lookup and each field strategy's lookup run inside their own `try`, and their raises are modelled as "raised" answers. The free-form exception text is not modelled.
- Extraction.FallbackScan, Extraction.Containers: the fallback's `find_elements(By.TAG_NAME, "div")` and each `div.text.strip()` (main.py:196-198) run outside any per-lookup `try`. A raise there reaches the handler at main.py:391-392, which prints "Error in extraction: ..." and ends the extraction with no containers line and no listings. `Page.divs` is a plain list of divs, so the model has no raising fallback, and `Extraction.ExtractionLog` and `Extraction.Scrape` always print a containers line.
- The regular-expression engine. Each bathroom pattern's match is an input. The model only assumes that a match is non-empty and starts with a character that is not whitespace, which holds because each pattern begins with `\d+`.
- Python's Unicode `isdigit` and `lower`: the model accepts only ASCII digits and lower-cases only ASCII letters. Whitespace follows `str.isspace` in full.
- Newline translation in the pipe. A field holding `\n` or `\r` would split its progress line into several reads; the replay lemmas require displayed fields without them (`Replay.FieldClean`).
- The "Found" line and the closing count line are replayed at their recognisers (`Replay.FoundLineSetsTotal`, `Replay.ExtractedLineMessage`). Neither is replayed through a whole reading step, although it could be: the selector in the found line is always one of the `CardSelectors` constants. The container-count and processing lines are replayed end to end.
- The CSV fallback is an input of `Session.Succeeded`: the rows of the newest file, no file, or a failure after some rows.
- The five-minute wait is an outcome (`Session.TimedOut`), not a clock. The reading loop ends normally only once `readline()` returns '' and the process has already exited (app.py:75-76), so after a complete read `wait(timeout=300)` cannot time out. A timeout can only follow the "Error reading output" break, which is left out above. The model allows `TimedOut` after any outputs, which admits more outcomes than the code can reach.

## Findings

The reading loop and the worker are modelled as the code is written (`Interpreter.Effect`, `Session.Worker`). The corrected definitions are proved alongside them. `Interpreter.ProcessingEffect` is the counter update with both halves cleaned, and `Session.IntendedWorker` is the worker with the intended verdict.

| source | as written | input that shows it | evidently intended | confidence | as-written member | corrected member |
|---|---|---|---|---|---|---|
| app.py:133-137 | the "..." suffix is removed from the first half of "I/N..." only, but the scraper prints it after N (main.py:208), so `int("15...")` raises after `current` was set | the line "🏠 Processing property 3/15..." sets current to 3 and leaves total and message unchanged | both halves are stripped of the ellipsis, and current, total and message are all set | high, not executed | Replay.ProcessingCounterAsWritten | Replay.ProcessingCounter |
| app.py:236-240 | on a non-zero exit the code reads `process.stderr`, which is `None` because the error stream is merged into the output, so the outer handler (app.py:243-246) reports "Error: 'NoneType' object has no attribute 'read'" | any exit code other than 0 | the session ends with "Error occurred during scraping" | high, not executed | Session.FinishAsWritten | Session.Finish |

=== FILE: extraction.dfy ===
/**
 * The listing extractor of the scraper: which containers on the results page
 * are read, how each of the five fields is pulled out of a container by an
 * ordered list of strategies, how the bathroom count is derived from the
 * bedroom text, which listings survive the completeness gate, and the
 * progress lines printed along the way.
 *
 * The browser is data. A CSS or XPath lookup is not evaluated: its answer
 * is part of the input, as a `Query` (the matching elements in document
 * order, or `None` when the lookup raised). Likewise each bathroom regular
 * expression is represented by what `re.search` returned.
 */
module Extraction {
  import opened Wrappers
  import opened Text
  import opened Seqs
  import opened Listings
  import WorkerLog

  /** The value a field keeps when no strategy filled it. */
  const NotFound := "Not found"

  /** Prefixed to a site-relative link. */
  const SiteOrigin := "https://www.apartments.com"

  /** Cards kept from the first selector that finds any. */
  const MaxCards: nat := 15
  /** Divs the fallback looks at, and how many listing-like ones it keeps. */
  const FallbackScanned: nat := 100
  const FallbackWanted: nat := 10

  /** The container selectors, tried in this order. */
  const CardSelectors: seq<string> := [
    ".placard", ".property-wrap", ".listing-item", ".result-item",
    "[data-testid=\"property-card\"]", ".rentals-results .property", ".property-card",
    ".listing-result", "[class*=\"property\"]", "[class*=\"listing\"]"
  ]

  /** The per-field strategies, each list tried in order inside one container. */
  const PriceSelectors: seq<string> := [
    ".//*[contains(@class, 'price')]", ".//*[contains(@class, 'rent')]",
    ".//*[contains(text(), '$')]", ".//span[contains(text(), '$')]",
    ".//div[contains(text(), '$')]", ".//*[@data-testid*=\"price\"]"
  ]
  const AddressSelectors: seq<string> := [
    ".//*[contains(@class, 'address')]", ".//*[contains(@class, 'location')]",
    ".//*[contains(text(), 'NY')]", ".//*[contains(text(), 'Street')]",
    ".//*[contains(text(), 'Ave')]", ".//*[contains(text(), 'Blvd')]",
    ".//*[contains(text(), 'Road')]", ".//*[@data-testid*=\"address\"]"
  ]
  const BedSelectors: seq<string> := [
    ".//*[contains(@class, 'bed')]", ".//*[contains(@class, 'bedroom')]",
    ".//*[contains(text(), 'bed')]", ".//*[contains(text(), 'bd')]",
    ".//*[contains(text(), 'studio')]", ".//*[contains(text(), 'br')]"
  ]
  const BathPatterns: seq<string> := [
    "(\\d+(?:\\.\\d+)?)\\s*bath(?:s|room)?", "(\\d+(?:\\.\\d+)?)\\s*ba\\b", "(\\d+(?:\\.\\d+)?)\\s*bathroom"
  ]
  const UrlSelectors: seq<string> := [".//a[contains(@href, '/')]", ".//a", ".//*[@href]"]

  /** Words whose presence in the lower-cased text accepts an address, or a bedroom text. */
  const AddressWords: seq<string> := ["ny", "street", "ave", "blvd", "road", "dr", "new york"]
  const BedWords: seq<string> := ["bed", "bd", "studio", "bedroom", "br"]

  /** The bathroom estimate for a bedroom text, by the first key found in it; `BathDefault` when none is. */
  type BathRow = (string, string)
  const BathTable: seq<BathRow> := [
    ("studio", "1 bath"), ("1", "1 bath"), ("2", "1-2 baths"), ("3", "2 baths"), ("4", "2-3 baths")
  ]
  const BathDefault := "2+ baths"

  /** An element found inside a container: its `.text` and its `href` attribute. */
  datatype Element = Element(text: string, href: Option<string>)

  /** The answer to one lookup: the matches in document order, or `None` when the lookup raised. */
  type Query<T> = Option<seq<T>>

  /**
   * A candidate listing container. `text` is its `.text`. `prices[i]`
   * answers `PriceSelectors[i]` inside the container, and likewise for
   * `addresses`, `beds` and `links`; `bathSearch[i]` is the matched text of
   * `re.search(BathPatterns[i], text.lower())`, or `None`.
   */
  datatype Card = Card(
    text: string,
    prices: seq<Query<Element>>,
    addresses: seq<Query<Element>>,
    beds: seq<Query<Element>>,
    bathSearch: seq<Option<string>>,
    links: seq<Query<Element>>)
  {
    /**
     * Every regular-expression match is non-empty and starts with a
     * non-whitespace character, as each pattern begins with `\d+` and a
     * Unicode decimal digit is never whitespace.
     */
    predicate BathMatchesFromPatterns() {
      forall i :: 0 <= i < |bathSearch| && bathSearch[i].Some? ==>
        |bathSearch[i].value| > 0 && !IsSpace(bathSearch[i].value[0])
    }
  }

  /**
   * The results page: `cardQueries[i]` answers `CardSelectors[i]`; `divs` are
   * all its divs in document order. The div lookup and the div texts are taken
   * to succeed: a raise there would end the whole extraction.
   */
  datatype Page = Page(cardQueries: seq<Query<Card>>, divs: seq<Card>) {
    predicate WellFormed() {
      |cardQueries| == |CardSelectors|
    }
  }

  // ---------------------------------------------------------------------------
  // Containers (the selector loop and the fallback scan)

  /** A container lookup that returned at least one card. */
  predicate HasCards(q: Query<Card>) {
    q.Some? && |q.value| > 0
  }

  /**
   * The cards the selector loop settles on: those of the first selector
   * whose lookup returned any, cut to `MaxCards`; none when every lookup was
   * empty or raised.
   */
  function SelectCards(qs: seq<Query<Card>>): (cards: seq<Card>)
    ensures |cards| <= MaxCards
    ensures cards == [] <==> forall j :: 0 <= j < |qs| ==> !HasCards(qs[j])
  {
    match FirstIndex(qs, HasCards)
    case None => []
    case Some(k) => Take(qs[k].value, MaxCards)
  }

  /** The first selector that finds cards decides: its cards, at most `MaxCards` of them, in document order. */
  lemma SelectCardsFirst(qs: seq<Query<Card>>, k: nat)
    requires k < |qs| && HasCards(qs[k])
    requires forall j :: 0 <= j < k ==> !HasCards(qs[j])
    ensures SelectCards(qs) == Take(qs[k].value, MaxCards)
  {
    FirstIndexAt(qs, HasCards, k);
  }

  /** Selectors after the first one that finds cards do not change the outcome. */
  lemma SelectCardsIgnoresLater(qs: seq<Query<Card>>, later: seq<Query<Card>>)
    requires exists k :: 0 <= k < |qs| && HasCards(qs[k])
    ensures SelectCards(qs + later) == SelectCards(qs)
  {
    FirstIndexIgnoresLater(qs, later, HasCards);
    var k := FirstIndex(qs, HasCards).value;
    assert (qs + later)[k] == qs[k];
  }

  /** The fallback test on a div: a `$` in its stripped text, and "bed", "bath" or "br" in its lower-cased text. */
  predicate LooksLikeListing(div: Card) {
    var text := Strip(div.text);
    var lower := Lower(text);
    Contains(text, "$") && (Contains(lower, "bed") || Contains(lower, "bath") || Contains(lower, "br"))
  }

  /**
   * The fallback scan: walk the first `FallbackScanned` divs in order,
   * keep the listing-like ones, and stop as soon as `FallbackWanted` are
   * kept.
   */
  method FallbackScan(divs: seq<Card>) returns (picked: seq<Card>)
    ensures picked == Take(Filter(Take(divs, FallbackScanned), LooksLikeListing), FallbackWanted)
    ensures |picked| <= FallbackWanted
    ensures forall i :: 0 <= i < |picked| ==> LooksLikeListing(picked[i]) && picked[i] in divs
  {
    picked := FilterUpTo(Take(divs, FallbackScanned), LooksLikeListing, FallbackWanted);
    TakeFilterTake(divs, FallbackScanned, LooksLikeListing, FallbackWanted);
  }

  /** The containers the extraction loop visits: the selected cards, or the fallback's divs when there are none. */
  function Containers(page: Page): (cards: seq<Card>)
    ensures |cards| <= MaxCards
    ensures SelectCards(page.cardQueries) != [] ==> cards == SelectCards(page.cardQueries)
    ensures SelectCards(page.cardQueries) == [] ==> |cards| <= FallbackWanted && forall i :: 0 <= i < |cards| ==> LooksLikeListing(cards[i])
  {
    var selected := SelectCards(page.cardQueries);
    TakeFilterTake(page.divs, FallbackScanned, LooksLikeListing, FallbackWanted);
    if selected != [] then selected else Take(Filter(Take(page.divs, FallbackScanned), LooksLikeListing), FallbackWanted)
  }

  // ---------------------------------------------------------------------------
  // Price, address and beds

  /** The element `find_element` returns for a strategy: the first match, when there is one. */
  function FirstElement(q: Query<Element>): Option<Element> {
    if q.Some? && |q.value| > 0 then Some(q.value[0]) else None
  }

  /** The stripped text of that element. */
  function Candidate(q: Query<Element>): Option<string> {
    match FirstElement(q)
    case None => None
    case Some(e) => Some(Strip(e.text))
  }

  predicate Passes(q: Query<Element>, accept: string -> bool) {
    Candidate(q).Some? && accept(Candidate(q).value)
  }

  /** The strategy test for one field, as a value `FirstIndex` can scan with. */
  function PassesWith(accept: string -> bool): Query<Element> -> bool {
    (q: Query<Element>) => Passes(q, accept)
  }

  /**
   * A field filled by a strategy list: the candidate of the first strategy
   * whose candidate is accepted, otherwise `NotFound`. Only the first
   * element of each strategy is tested.
   */
  function FieldValue(qs: seq<Query<Element>>, accept: string -> bool): (v: string)
    ensures (forall k :: 0 <= k < |qs| ==> !Passes(qs[k], accept)) ==> v == NotFound
    ensures v == NotFound || accept(v)
  {
    match FirstIndex(qs, PassesWith(accept))
    case None => NotFound
    case Some(k) => Candidate(qs[k]).value
  }

  /** The first strategy whose candidate is accepted decides the field. */
  lemma FieldValueFirst(qs: seq<Query<Element>>, accept: string -> bool, k: nat)
    requires k < |qs| && Passes(qs[k], accept)
    requires forall j :: 0 <= j < k ==> !Passes(qs[j], accept)
    ensures FieldValue(qs, accept) == Candidate(qs[k]).value
  {
    FirstIndexAt(qs, PassesWith(accept), k);
  }

  /** Some word of `words` occurs in `s`. */
  predicate ContainsAny(s: string, words: seq<string>) {
    exists i :: 0 <= i < |words| && Contains(s, words[i])
  }

  predicate PriceOk(t: string) {
    Contains(t, "$") && t != "" && |t| > 1
  }

  predicate AddressOk(t: string) {
    ContainsAny(Lower(t), AddressWords)
  }

  predicate BedsOk(t: string) {
    ContainsAny(Lower(t), BedWords)
  }

  function ExtractPrice(c: Card): string {
    FieldValue(c.prices, PriceOk)
  }

  function ExtractAddress(c: Card): string {
    FieldValue(c.addresses, AddressOk)
  }

  function ExtractBeds(c: Card): string {
    FieldValue(c.beds, BedsOk)
  }

  /** No accepted text is the placeholder, so a field reads `NotFound` exactly when no strategy succeeded. */
  lemma NotFoundNeverAccepted()
    ensures !PriceOk(NotFound) && !AddressOk(NotFound) && !BedsOk(NotFound)
  {
    MissingChar(NotFound, "$", '$');
    var lower := Lower(NotFound);
    assert lower == "not found";
    var missing := ['y', 's', 'a', 'b', 'r', 'r', 'w'];
    forall i | 0 <= i < |AddressWords|
      ensures !Contains(lower, AddressWords[i])
    {
      MissingChar(lower, AddressWords[i], missing[i]);
    }
    forall i | 0 <= i < |BedWords|
      ensures !Contains(lower, BedWords[i])
    {
      MissingChar(lower, BedWords[i], if i == 2 then 's' else 'b');
    }
  }

  /**
   * A field read by a strategy list is `NotFound` exactly when no strategy's
   * first element is accepted; otherwise it is an accepted, already stripped
   * text.
   */
  lemma FieldFound(qs: seq<Query<Element>>, accept: string -> bool)
    requires !accept(NotFound)
    ensures FieldValue(qs, accept) == NotFound <==> forall k :: 0 <= k < |qs| ==> !Passes(qs[k], accept)
    ensures FieldValue(qs, accept) != NotFound ==>
      accept(FieldValue(qs, accept)) && Strip(FieldValue(qs, accept)) == FieldValue(qs, accept)
  {
    var p := PassesWith(accept);
    var k := FirstIndex(qs, p);
    if k.Some? {
      assert p(qs[k.value]);
      StripIdempotent(FirstElement(qs[k.value]).value.text);
    } else {
      forall j | 0 <= j < |qs|
        ensures !Passes(qs[j], accept)
      {
        assert !p(qs[j]);
      }
    }
  }

  // ---------------------------------------------------------------------------
  // Baths

  /** The table test for a lower-cased bedroom text: the row's key occurs in it. */
  function KeyIn(t: string): BathRow -> bool {
    (row: BathRow) => Contains(t, row.0)
  }

  /** The bathroom estimate from the bedroom text: the value of the first table key in its lower-cased form. */
  function DeriveBaths(beds: string): (baths: string)
    ensures baths != NotFound
    ensures |baths| > 0 && (baths[0] == '1' || baths[0] == '2')
    ensures baths == BathDefault || exists k :: 0 <= k < |BathTable| && baths == BathTable[k].1
  {
    match FirstIndex(BathTable, KeyIn(Lower(beds)))
    case None => BathDefault
    case Some(k) => BathTable[k].1
  }

  /** The derivation table is read in order: the first key present decides. */
  lemma DeriveBathsFirstKey(beds: string, k: nat)
    requires k < |BathTable| && Contains(Lower(beds), BathTable[k].0)
    requires forall j :: 0 <= j < k ==> !Contains(Lower(beds), BathTable[j].0)
    ensures DeriveBaths(beds) == BathTable[k].1
  {
    FirstIndexAt(BathTable, KeyIn(Lower(beds)), k);
  }

  /** Without any key in the text the estimate is the default. */
  lemma DeriveBathsDefault(beds: string)
    requires forall j :: 0 <= j < |BathTable| ==> !Contains(Lower(beds), BathTable[j].0)
    ensures DeriveBaths(beds) == BathDefault
  {
    var p := KeyIn(Lower(beds));
    assert forall j :: 0 <= j < |BathTable| ==> !p(BathTable[j]);
  }

  predicate IsMatch(m: Option<string>) {
    m.Some?
  }

  /** The text of the first bathroom pattern that matched, or `NotFound`. */
  function BathMatch(c: Card): string {
    match FirstIndex(c.bathSearch, IsMatch)
    case None => NotFound
    case Some(k) => c.bathSearch[k].value
  }

  /** Baths: a regular-expression match wins; failing that, an estimate from beds when beds were found. */
  function ExtractBaths(c: Card, beds: string): (baths: string)
    ensures beds != NotFound ==> baths != NotFound
  {
    var found := BathMatch(c);
    if found == NotFound && beds != NotFound then DeriveBaths(beds) else found
  }

  /** The first pattern that matches decides the bathroom text, whatever the beds are. */
  lemma BathsFromFirstMatch(c: Card, beds: string, k: nat)
    requires k < |c.bathSearch| && c.bathSearch[k].Some? && c.bathSearch[k].value != NotFound
    requires forall j :: 0 <= j < k ==> c.bathSearch[j].None?
    ensures ExtractBaths(c, beds) == c.bathSearch[k].value
  {
    FirstIndexAt(c.bathSearch, IsMatch, k);
  }

  /** With no pattern matching, baths is the estimate from found beds, and the placeholder otherwise. */
  lemma BathsWithoutMatch(c: Card, beds: string)
    requires forall k :: 0 <= k < |c.bathSearch| ==> c.bathSearch[k].None?
    ensures ExtractBaths(c, beds) == if beds != NotFound then DeriveBaths(beds) else NotFound
  {
    assert forall k :: 0 <= k < |c.bathSearch| ==> !IsMatch(c.bathSearch[k]);
  }

  // ---------------------------------------------------------------------------
  // URL

  /** The first element of a strategy carries a non-empty `href`. */
  predicate HasHref(q: Query<Element>) {
    FirstElement(q).Some? && FirstElement(q).value.href.Some? && FirstElement(q).value.href.value != ""
  }

  function Href(q: Query<Element>): string
    requires HasHref(q)
  {
    FirstElement(q).value.href.value
  }

  /** An absolute link is kept, a site-relative one gets the site origin, anything else leaves the placeholder. */
  function Absolutize(href: string): (url: string)
    ensures url == NotFound || StartsWith(url, "http")
    ensures StartsWith(href, "http") ==> url == href
    ensures !StartsWith(href, "http") && StartsWith(href, "/") ==> url == SiteOrigin + href && StartsWith(url, "https://")
    ensures !StartsWith(href, "http") && !StartsWith(href, "/") ==> url == NotFound
  {
    if StartsWith(href, "http") then
      href
    else if StartsWith(href, "/") then
      assert (SiteOrigin + href)[..4] == "http";
      assert (SiteOrigin + href)[..8] == "https://";
      SiteOrigin + href
    else
      NotFound
  }

  /** The link search ends at the first strategy whose element has a non-empty `href`, whatever that `href` is. */
  function ExtractUrl(c: Card): (url: string)
    ensures url == NotFound || StartsWith(url, "http")
    ensures (forall k :: 0 <= k < |c.links| ==> !HasHref(c.links[k])) ==> url == NotFound
  {
    match FirstIndex(c.links, HasHref)
    case None => NotFound
    case Some(k) => Absolutize(Href(c.links[k]))
  }

  /** The first strategy with an `href` decides the link, even when that `href` cannot be made absolute. */
  lemma ExtractUrlFirst(c: Card, k: nat)
    requires k < |c.links| && HasHref(c.links[k])
    requires forall j :: 0 <= j < k ==> !HasHref(c.links[j])
    ensures ExtractUrl(c) == Absolutize(Href(c.links[k]))
  {
    FirstIndexAt(c.links, HasHref, k);
  }

  // ---------------------------------------------------------------------------
  // One container, and the completeness gate

  /**
   * One container read field by field: each text field is either the
   * placeholder or a text its acceptance test passes, found beds always
   * bring a bathroom text, and a link is either absolute or the placeholder.
   */
  function ExtractCard(c: Card): (l: Listing)
    ensures l.price == NotFound || PriceOk(l.price)
    ensures l.address == NotFound || AddressOk(l.address)
    ensures l.beds == NotFound || BedsOk(l.beds)
    ensures l.beds != NotFound ==> l.baths != NotFound
    ensures l.url == NotFound || StartsWith(l.url, "http")
  {
    var beds := ExtractBeds(c);
    Listing(ExtractPrice(c), ExtractAddress(c), beds, ExtractBaths(c, beds), ExtractUrl(c))
  }

  /** A field counts when it is neither the placeholder nor blank. */
  predicate Filled(v: string) {
    v != NotFound && Strip(v) != ""
  }

  function Fields(l: Listing): seq<string> {
    [l.price, l.address, l.beds, l.baths, l.url]
  }

  /** The number of filled fields. */
  function FilledCount(fields: seq<string>): (n: nat)
    ensures n <= |fields|
    decreases |fields|
  {
    if |fields| == 0 then 0 else (if Filled(fields[0]) then 1 else 0) + FilledCount(fields[1..])
  }

  /** The gate: at least two of the five fields are filled. */
  predicate Complete(l: Listing) {
    FilledCount(Fields(l)) >= 2
  }

  lemma {:induction false} FilledCountPositive(fields: seq<string>)
    ensures FilledCount(fields) >= 1 <==> exists j :: 0 <= j < |fields| && Filled(fields[j])
    decreases |fields|
  {
    if |fields| > 0 {
      var rest := fields[1..];
      FilledCountPositive(rest);
      if exists j :: 0 <= j < |fields| && Filled(fields[j]) {
        var j :| 0 <= j < |fields| && Filled(fields[j]);
        if j > 0 {
          assert Filled(rest[j - 1]);
        }
      }
      if exists j :: 0 <= j < |rest| && Filled(rest[j]) {
        var j :| 0 <= j < |rest| && Filled(rest[j]);
        assert Filled(fields[j + 1]);
      }
    }
  }

  /** Counting reaches two exactly when two different fields are filled. */
  lemma {:induction false} FilledCountAtLeastTwo(fields: seq<string>)
    ensures FilledCount(fields) >= 2 <==>
      exists i, j :: 0 <= i < j < |fields| && Filled(fields[i]) && Filled(fields[j])
    decreases |fields|
  {
    if |fields| > 0 {
      var rest := fields[1..];
      FilledCountAtLeastTwo(rest);
      FilledCountPositive(rest);
      if FilledCount(fields) >= 2 {
        if Filled(fields[0]) {
          var j :| 0 <= j < |rest| && Filled(rest[j]);
          assert Filled(fields[j + 1]);
        } else {
          var i, j :| 0 <= i < j < |rest| && Filled(rest[i]) && Filled(rest[j]);
          assert Filled(fields[i + 1]) && Filled(fields[j + 1]);
        }
      }
      if exists i, j :: 0 <= i < j < |fields| && Filled(fields[i]) && Filled(fields[j]) {
        var i, j :| 0 <= i < j < |fields| && Filled(fields[i]) && Filled(fields[j]);
        assert Filled(rest[j - 1]);
        if i > 0 {
          assert Filled(rest[i - 1]);
        }
      }
    }
  }

  /** A listing passes the gate exactly when two of its fields are filled. */
  lemma CompleteIffTwoFilled(l: Listing)
    ensures Complete(l) <==> exists i, j :: 0 <= i < j < 5 && Filled(Fields(l)[i]) && Filled(Fields(l)[j])
  {
    FilledCountAtLeastTwo(Fields(l));
  }

  /** An accepted bedroom text is not empty. */
  lemma BedsOkNotEmpty(t: string)
    requires BedsOk(t)
    ensures |t| > 0
  {
    var i :| 0 <= i < |BedWords| && Contains(Lower(t), BedWords[i]);
    ContainedChars(Lower(t), BedWords[i]);
    assert BedWords[i][0] in Lower(t);
  }

  /** Found bedroom text is never blank. */
  lemma BedsFilled(c: Card)
    requires ExtractBeds(c) != NotFound
    ensures Filled(ExtractBeds(c))
  {
    var v := ExtractBeds(c);
    NotFoundNeverAccepted();
    FieldFound(c.beds, BedsOk);
    BedsOkNotEmpty(v);
  }

  /** A text whose first character is not whitespace survives stripping. */
  lemma NotBlank(s: string)
    requires |s| > 0 && !IsSpace(s[0])
    ensures Strip(s) != ""
  {
    StripKeeps(s, s[0]);
  }

  /**
   * Found beds always bring a bathroom text, an estimate if nothing else;
   * with every regular-expression match starting with a digit it is filled.
   */
  lemma BathsFilled(c: Card, beds: string)
    requires beds != NotFound
    requires c.BathMatchesFromPatterns()
    ensures Filled(ExtractBaths(c, beds))
  {
    var m := BathMatch(c);
    if m != NotFound {
      var k := FirstIndex(c.bathSearch, IsMatch).value;
      assert IsMatch(c.bathSearch[k]);
      NotBlank(m);
    } else {
      NotBlank(DeriveBaths(beds));
    }
  }

  /** So a container whose bedroom text is found passes the gate. */
  lemma BedsFoundPassesGate(c: Card)
    requires ExtractBeds(c) != NotFound
    requires c.BathMatchesFromPatterns()
    ensures ExtractCard(c).baths != NotFound
    ensures Complete(ExtractCard(c))
  {
    var l := ExtractCard(c);
    BedsFilled(c);
    BathsFilled(c, l.beds);
    CompleteIffTwoFilled(l);
    assert Filled(Fields(l)[2]) && Filled(Fields(l)[3]);
  }

  // ---------------------------------------------------------------------------
  // The extraction loop

  /** The listing built from each container, in container order. */
  function Extracted(cards: seq<Card>): (ls: seq<Listing>)
    ensures |ls| == |cards|
    ensures forall i :: 0 <= i < |cards| ==> ls[i] == ExtractCard(cards[i])
  {
    seq(|cards|, i requires 0 <= i < |cards| => ExtractCard(cards[i]))
  }

  /** The listings that pass the gate: all of them and only them, in container order. */
  function Kept(cards: seq<Card>): (records: seq<Listing>)
    ensures |records| <= |cards|
    ensures forall j :: 0 <= j < |records| ==> Complete(records[j])
    ensures forall j :: 0 <= j < |records| ==> exists i :: 0 <= i < |cards| && records[j] == ExtractCard(cards[i])
    ensures forall i :: 0 <= i < |cards| && Complete(ExtractCard(cards[i])) ==> ExtractCard(cards[i]) in records
  {
    Filter(Extracted(cards), Complete)
  }

  /**
   * The lines printed for the listings `ls`, where `ok` is the gate,
   * numbered from `visited + 1` of `count`, after `kept` listings were kept.
   */
  function VerdictLog(ls: seq<Listing>, ok: Listing -> bool, count: nat, visited: nat, kept: nat): seq<WorkerLog.Line>
    decreases |ls|
  {
    if |ls| == 0 then []
    else
      var verdict := if ok(ls[0]) then WorkerLog.Property(kept + 1, ls[0]) else WorkerLog.Skipped(visited + 1);
      WorkerLog.ProcessingLines(visited + 1, count) + [verdict]
        + VerdictLog(ls[1..], ok, count, visited + 1, if ok(ls[0]) then kept + 1 else kept)
  }

  lemma {:induction false} VerdictLogAppend(a: seq<Listing>, b: seq<Listing>, ok: Listing -> bool, count: nat, visited: nat, kept: nat)
    ensures VerdictLog(a + b, ok, count, visited, kept)
      == VerdictLog(a, ok, count, visited, kept) + VerdictLog(b, ok, count, visited + |a|, kept + |Filter(a, ok)|)
    decreases |a|
  {
    if |a| == 0 {
      assert a + b == b;
    } else {
      var ab := a + b;
      var kept' := if ok(a[0]) then kept + 1 else kept;
      var verdict := if ok(a[0]) then WorkerLog.Property(kept + 1, a[0]) else WorkerLog.Skipped(visited + 1);
      var head := WorkerLog.ProcessingLines(visited + 1, count) + [verdict];
      assert ab[0] == a[0];
      assert ab[1..] == a[1..] + b;
      assert VerdictLog(ab, ok, count, visited, kept) == head + VerdictLog(a[1..] + b, ok, count, visited + 1, kept');
      VerdictLogAppend(a[1..], b, ok, count, visited + 1, kept');
      assert VerdictLog(a, ok, count, visited, kept) == head + VerdictLog(a[1..], ok, count, visited + 1, kept');
      assert a == [a[0]] + a[1..];
      FilterAppend([a[0]], a[1..], ok);
    }
  }

  /** Lookup `k` is the first one that returned cards. */
  predicate FirstWithCards(qs: seq<Query<Card>>, k: nat) {
    k < |qs| && HasCards(qs[k]) && forall j :: 0 <= j < k ==> !HasCards(qs[j])
  }

  /** The lines printed while the containers are chosen. */
  function SelectionLog(page: Page): seq<WorkerLog.Line>
    requires page.WellFormed()
  {
    var qs := page.cardQueries;
    match FirstIndex(qs, HasCards)
    case Some(k) => [WorkerLog.Found(|qs[k].value|, CardSelectors[k])]
    case None => [WorkerLog.Fallback]
  }

  /** Everything printed from the container search to the last container. */
  function ExtractionLog(page: Page): seq<WorkerLog.Line>
    requires page.WellFormed()
  {
    var cards := Containers(page);
    SelectionLog(page) + [WorkerLog.Containers(|cards|)] + VerdictLog(Extracted(cards), Complete, |cards|, 0, 0)
  }

  /** The selector loop, then the fallback scan when no selector found any cards. */
  method FindContainers(page: Page) returns (cards: seq<Card>, log: seq<WorkerLog.Line>)
    requires page.WellFormed()
    ensures cards == Containers(page)
    ensures log == [WorkerLog.Fallback] <==> SelectCards(page.cardQueries) == []
    ensures forall k: nat :: FirstWithCards(page.cardQueries, k) ==> log == [WorkerLog.Found(|page.cardQueries[k].value|, CardSelectors[k])]
    ensures log == SelectionLog(page)
  {
    cards := SelectCards(page.cardQueries);
    if cards == [] {
      log := [WorkerLog.Fallback];
      cards := FallbackScan(page.divs);
    } else {
      var k := FirstIndex(page.cardQueries, HasCards).value;
      log := [WorkerLog.Found(|page.cardQueries[k].value|, CardSelectors[k])];
    }
    forall k: nat | FirstWithCards(page.cardQueries, k)
      ensures FirstIndex(page.cardQueries, HasCards) == Some(k)
    {
      FirstIndexAt(page.cardQueries, HasCards, k);
    }
  }

  /**
   * The extraction loop over the listings read from the containers: each is
   * kept when it passes the gate `ok`, and its progress lines are printed.
   */
  method GateAll(ls: seq<Listing>, ok: Listing -> bool) returns (records: seq<Listing>, log: seq<WorkerLog.Line>)
    ensures records == Filter(ls, ok)
    ensures log == VerdictLog(ls, ok, |ls|, 0, 0)
  {
    records := [];
    log := [];
    var i := 0;
    while i < |ls|
      invariant 0 <= i <= |ls|
      invariant records == Filter(ls[..i], ok)
      invariant log == VerdictLog(ls[..i], ok, |ls|, 0, 0)
    {
      var l := ls[i];
      assert ls[..i + 1] == ls[..i] + [l];
      FilterAppend(ls[..i], [l], ok);
      VerdictLogAppend(ls[..i], [l], ok, |ls|, 0, 0);
      log := log + WorkerLog.ProcessingLines(i + 1, |ls|);
      if ok(l) {
        records := records + [l];
        log := log + [WorkerLog.Property(|records|, l)];
      } else {
        log := log + [WorkerLog.Skipped(i + 1)];
      }
      i := i + 1;
    }
    assert ls[..i] == ls;
  }

  /**
   * The body of `scrape_apartments_main` from the selector loop to the last
   * container: the kept listings in container order, and the lines printed.
   */
  method Scrape(page: Page) returns (records: seq<Listing>, log: seq<WorkerLog.Line>)
    requires page.WellFormed()
    ensures records == Kept(Containers(page))
    ensures log == ExtractionLog(page)
    ensures |records| <= MaxCards
    ensures forall i :: 0 <= i < |records| ==> Complete(records[i])
  {
    var cards, header := FindContainers(page);
    var rest;
    records, rest := GateAll(Extracted(cards), Complete);
    log := header + [WorkerLog.Containers(|cards|)] + rest;
  }
}

=== FILE: interpreter.dfy ===
/**
 * The web app's reading of the scraper's output, one line at a time: a
 * line counter with its debugging messages, the accumulator that recovers
 * a Google Sheets link which may be split over several lines, and the
 * chain of recognisers, of which the first that matches updates the
 * progress record.
 */
module Interpreter {
  import opened Wrappers
  import opened Seqs
  import opened Text
  import opened Listings
  import opened ProgressState

  /** The two spellings of the link marker, tested and removed in this order. */
  const LinkMarker := "\U{1F517} View your sheet:"
  const SheetMarker := "View your sheet:"

  /** The link recorded for a listing recovered from a progress line. */
  const CsvPlaceholder := "See CSV file"

  /** The message shows at most this many characters of the first line. */
  const FirstLineShown: nat := 50

  /** The reading loop's state: the shared record, the lines read so far, and the partly collected link. */
  datatype Reader = Reader(progress: Progress, lines: nat, collected: string)

  /** The loop's state before the first line. */
  function Begin(p: Progress): Reader {
    Reader(p, 0, "")
  }

  /** The recognisers, in the order they are tried. */
  datatype Rule =
    | Setup | Loading | Searching | FoundCount | ContainerCount | ProcessingProperty
    | PropertyRecord | ExtractedCount | Uploaded | Saved | ErrorLine | Unrecognised

  /** The first recogniser whose phrases all occur in the (stripped) line. */
  function Classify(line: string): Rule {
    if Contains(line, "Starting Chrome browser") || Contains(line, "Opening Apartments.com") then Setup
    else if Contains(line, "Waiting for page to load") then Loading
    else if Contains(line, "Searching for property data") then Searching
    else if Contains(line, "Found") && Contains(line, "properties using selector") then FoundCount
    else if Contains(line, "Total property containers found:") then ContainerCount
    else if Contains(line, "Processing property") then ProcessingProperty
    else if Contains(line, "Property") && Contains(line, "$") && Contains(line, "|") then PropertyRecord
    else if Contains(line, "Successfully extracted") && Contains(line, "properties") then ExtractedCount
    else if Contains(line, "Data uploaded successfully") then Uploaded
    else if Contains(line, "Data saved to:") then Saved
    else if Contains(line, "Error:") then ErrorLine
    else Unrecognised
  }

  /**
   * The phrases each recogniser looks for, one recogniser at a time; the last
   * one takes any line. These are the conditions of `Classify` taken apart, so
   * what `ClassifyFirstMatch` adds is the chain order given by `Rank`.
   */
  predicate Matches(rule: Rule, line: string) {
    match rule
    case Setup => Contains(line, "Starting Chrome browser") || Contains(line, "Opening Apartments.com")
    case Loading => Contains(line, "Waiting for page to load")
    case Searching => Contains(line, "Searching for property data")
    case FoundCount => Contains(line, "Found") && Contains(line, "properties using selector")
    case ContainerCount => Contains(line, "Total property containers found:")
    case ProcessingProperty => Contains(line, "Processing property")
    case PropertyRecord => Contains(line, "Property") && Contains(line, "$") && Contains(line, "|")
    case ExtractedCount => Contains(line, "Successfully extracted") && Contains(line, "properties")
    case Uploaded => Contains(line, "Data uploaded successfully")
    case Saved => Contains(line, "Data saved to:")
    case ErrorLine => Contains(line, "Error:")
    case Unrecognised => true
  }

  /** The position of a recogniser in the chain. */
  function Rank(rule: Rule): nat {
    match rule
    case Setup => 0
    case Loading => 1
    case Searching => 2
    case FoundCount => 3
    case ContainerCount => 4
    case ProcessingProperty => 5
    case PropertyRecord => 6
    case ExtractedCount => 7
    case Uploaded => 8
    case Saved => 9
    case ErrorLine => 10
    case Unrecognised => 11
  }

  /** The chain picks a recogniser whose phrases occur, and no recogniser before it has its phrases in the line. */
  lemma ClassifyFirstMatch(line: string)
    ensures Matches(Classify(line), line)
    ensures forall rule: Rule :: Rank(rule) < Rank(Classify(line)) ==> !Matches(rule, line)
  {
    var c := Classify(line);
    forall rule: Rule | Rank(rule) < Rank(c)
      ensures !Matches(rule, line)
    {
    }
  }

  /** A listing line needs a `$`: without one no recogniser appends. */
  lemma RecordNeedsDollar(line: string)
    requires '$' !in line
    ensures Classify(line) != PropertyRecord
  {
    ContainsChar(line, '$');
  }

  /** Only the first recogniser that matches acts: a processing line never adds a listing, whatever else it contains. */
  lemma ProcessingNeverRecords(r: Reader, output: string)
    requires Contains(Strip(output), "Processing property")
    ensures Step(r, output).progress.properties == r.progress.properties
    ensures Gain(output) == []
  {
    assert Classify(Strip(output)) != PropertyRecord;
  }

  // ---------------------------------------------------------------------------
  // The line counter

  /** The first line is echoed (cut to `FirstLineShown` characters), and every fifth line is counted. */
  function Announce(p: Progress, n: nat, line: string): (p': Progress)
    ensures p' == p.(message := p'.message)
    ensures n == 1 ==> p'.message == "Process started! First line: " + Take(line, FirstLineShown) + "..."
    ensures n != 1 && n % 5 == 0 ==> p'.message == "Processing... (line " + NatToString(n) + ")"
    ensures n != 1 && n % 5 != 0 ==> p' == p
  {
    if n == 1 then
      p.(message := "Process started! First line: " + Take(line, FirstLineShown) + "...")
    else if n % 5 == 0 then
      p.(message := "Processing... (line " + NatToString(n) + ")")
    else
      p
  }

  // ---------------------------------------------------------------------------
  // The sheet link

  /** The result of feeding one line to the link accumulator. */
  datatype Collected = Collected(progress: Progress, collected: string)

  predicate IsMarkerLine(line: string) {
    Contains(line, LinkMarker) || Contains(line, SheetMarker)
  }

  /**
   * A marker line starts a new link from what follows the marker; a line
   * containing "http" extends a link that does not yet start with "http";
   * any other line commits a link that does start with "http" and clears
   * the accumulator.
   */
  function CollectUrl(p: Progress, collected: string, line: string): (c: Collected)
    ensures c.progress == p || (StartsWith(collected, "http") && c.progress == p.(sheetUrl := Some(collected)))
    ensures c.progress != p ==> c.collected == "" && !IsMarkerLine(line)
    ensures IsMarkerLine(line) ==> c.progress == p && (forall ch :: ch in c.collected ==> ch in line)
    ensures !IsMarkerLine(line) && collected != "" && !StartsWith(collected, "http") && Contains(line, "http") ==>
      c == Collected(p, collected + Strip(line))
    ensures !IsMarkerLine(line) && StartsWith(collected, "http") ==> c == Collected(p.(sheetUrl := Some(collected)), "")
    ensures !IsMarkerLine(line) && (collected == "" || (!StartsWith(collected, "http") && !Contains(line, "http"))) ==>
      c == Collected(p, collected)
  {
    if IsMarkerLine(line) then
      var part := Strip(ReplaceAll(ReplaceAll(line, LinkMarker, ""), SheetMarker, ""));
      assert forall ch :: ch in part ==> ch in line by {
        forall ch | ch in part
          ensures ch in line
        {
          StripFrom(ReplaceAll(ReplaceAll(line, LinkMarker, ""), SheetMarker, ""), ch);
        }
      }
      Collected(p, part)
    else if collected != "" && !StartsWith(collected, "http") && Contains(line, "http") then
      Collected(p, collected + Strip(line))
    else if collected != "" && StartsWith(collected, "http") then
      Collected(p.(sheetUrl := Some(collected)), "")
    else
      Collected(p, collected)
  }

  /** The prefixed marker contains the plain one, so a line without the plain marker has neither. */
  lemma MarkerWithin(s: string)
    requires !Contains(s, SheetMarker)
    ensures !Contains(s, LinkMarker)
  {
    assert LinkMarker[2..] == SheetMarker;
    ContainsAt(LinkMarker, SheetMarker, 2);
    if Contains(s, LinkMarker) {
      ContainsWithin(s, LinkMarker, SheetMarker);
      assert false;
    }
  }

  /** Removing both markers from a marker line that carries a link leaves the link, padded by one space. */
  lemma MarkerRemainder(url: string)
    requires !Contains(url, SheetMarker)
    ensures ReplaceAll(ReplaceAll(LinkMarker + " " + url, LinkMarker, ""), SheetMarker, "") == " " + url
  {
    var rest := " " + url;
    assert LinkMarker + " " + url == LinkMarker + rest;
    ReplaceAllLeading(LinkMarker, rest);
    MarkerWithin(url);
    assert LinkMarker[0] !in " ";
    assert SheetMarker[0] !in " ";
    if Contains(rest, LinkMarker) {
      ContainsAfterPrefix(" ", url, LinkMarker);
      assert false;
    }
    if Contains(rest, SheetMarker) {
      ContainsAfterPrefix(" ", url, SheetMarker);
      assert false;
    }
  }

  /** What a marker line carrying a link leaves once the markers are removed and the rest is stripped. */
  lemma MarkerPart(url: string)
    requires StartsWith(url, "http") && !IsSpace(url[|url| - 1]) && !Contains(url, SheetMarker)
    ensures Strip(ReplaceAll(ReplaceAll(LinkMarker + " " + url, LinkMarker, ""), SheetMarker, "")) == url
  {
    MarkerRemainder(url);
    HttpStart(url);
    StripLeadingSpace(url);
  }

  /** A text starting with "http" starts with a letter. */
  lemma HttpStart(url: string)
    requires StartsWith(url, "http")
    ensures |url| > 0 && url[0] == 'h' && !IsSpace(url[0])
  {
    assert url[..4] == "http";
    assert url[0] == url[..4][0];
  }

  lemma MarkerLineIsMarker(rest: string)
    ensures IsMarkerLine(LinkMarker + rest)
  {
    var line := LinkMarker + rest;
    assert line[..|LinkMarker|] == LinkMarker;
    ContainsAt(line, LinkMarker, 0);
  }

  /** A marker line carrying a link holds the link back without touching the record. */
  lemma MarkerLineHolds(p: Progress, collected: string, url: string)
    requires StartsWith(url, "http") && !IsSpace(url[|url| - 1]) && !Contains(url, SheetMarker)
    ensures CollectUrl(p, collected, LinkMarker + " " + url) == Collected(p, url)
  {
    assert LinkMarker + " " + url == LinkMarker + (" " + url);
    MarkerLineIsMarker(" " + url);
    MarkerPart(url);
  }

  /**
   * A link printed on the marker line is not committed by that line: it is
   * held back, and the next line that is not a marker line commits it,
   * whatever that line says.
   */
  lemma LinkCommitDelayed(p: Progress, q: Progress, collected: string, url: string, next: string)
    requires StartsWith(url, "http") && !IsSpace(url[|url| - 1]) && !Contains(url, SheetMarker)
    requires !IsMarkerLine(next)
    ensures var c := CollectUrl(p, collected, LinkMarker + " " + url);
      c.progress == p && c.collected == url
      && CollectUrl(q, c.collected, next) == Collected(q.(sheetUrl := Some(url)), "")
  {
    MarkerLineHolds(p, collected, url);
  }

  /**
   * A marker line with nothing after the marker starts no link, so a link
   * printed on the following lines is never collected, however it is split.
   */
  lemma SplitLinkIgnored(p: Progress, collected: string, first: string, second: string)
    requires !IsMarkerLine(first) && !IsMarkerLine(second)
    ensures var c0 := CollectUrl(p, collected, LinkMarker);
      var c1 := CollectUrl(c0.progress, c0.collected, first);
      var c2 := CollectUrl(c1.progress, c1.collected, second);
      c0.collected == "" && c2 == Collected(p, "")
  {
    ContainsAt(LinkMarker, LinkMarker, 0);
    assert LinkMarker[|LinkMarker|..] == "";
    NotContainsLonger("", LinkMarker);
    NotContainsLonger("", SheetMarker);
    StripNoop("");
  }

  // ---------------------------------------------------------------------------
  // The recognisers' effects

  /** The first whitespace-separated word of `line` made only of digits. */
  function FirstDigitWord(line: string): (w: Option<string>)
    ensures w.None? <==> forall k :: 0 <= k < |Words(line)| ==> !IsDigits(Words(line)[k])
    ensures w.Some? ==> IsDigits(w.value) && exists k :: 0 <= k < |Words(line)| && Words(line)[k] == w.value && forall j :: 0 <= j < k ==> !IsDigits(Words(line)[j])
  {
    var ws := Words(line);
    match FirstIndex(ws, IsDigits)
    case None => None
    case Some(k) => Some(ws[k])
  }

  predicate HasSlash(w: string) {
    '/' in w
  }

  /** The first whitespace-separated word of `line` containing a slash. */
  function FirstSlashWord(line: string): (w: Option<string>)
    ensures w.None? <==> forall k :: 0 <= k < |Words(line)| ==> '/' !in Words(line)[k]
    ensures w.Some? ==> '/' in w.value && exists k :: 0 <= k < |Words(line)| && Words(line)[k] == w.value && forall j :: 0 <= j < k ==> '/' !in Words(line)[j]
  {
    var ws := Words(line);
    match FirstIndex(ws, HasSlash)
    case None => None
    case Some(k) => Some(ws[k])
  }

  /** "Found N properties using selector": the first number becomes the total. */
  function FoundEffect(p: Progress, line: string): (p': Progress)
    ensures FirstDigitWord(line).None? ==> p' == p
    ensures FirstDigitWord(line).Some? ==> var w := FirstDigitWord(line).value;
      p' == p.(total := DigitsValue(w), message := "Found " + w + " properties! Extracting data...")
  {
    match FirstDigitWord(line)
    case None => p
    case Some(w) =>
      ParseIntDigits(w);
      match ParseInt(w)
      case None => p
      case Some(n) => p.(total := n, message := "Found " + w + " properties! Extracting data...")
  }

  /** `int(line.split(":")[-1].strip())`, `None` where the conversion raises. */
  function LastColonNumber(line: string): Option<int> {
    var parts := Split(line, ":");
    ParseInt(Strip(parts[|parts| - 1]))
  }

  /** "Total property containers found: N": the number after the last colon becomes the total. */
  function ContainerEffect(p: Progress, line: string): (p': Progress)
    ensures LastColonNumber(line).None? ==> p' == p
    ensures LastColonNumber(line).Some? ==> var n := LastColonNumber(line).value;
      p' == p.(total := n, message := "Processing " + IntToString(n) + " properties...")
  {
    match LastColonNumber(line)
    case None => p
    case Some(n) => p.(total := n, message := "Processing " + IntToString(n) + " properties...")
  }

  /**
   * The counter update from the two halves of "I/N": each assignment
   * happens only if the conversions before it succeeded, so a failed
   * conversion of the second half leaves `current` set and the rest
   * unchanged.
   */
  function ApplyCounter(p: Progress, cur: string, tot: string): (p': Progress)
    ensures ParseInt(cur).None? ==> p' == p
    ensures ParseInt(cur).Some? && ParseInt(tot).None? ==> p' == p.(current := ParseInt(cur).value)
    ensures ParseInt(cur).Some? && ParseInt(tot).Some? ==>
      p' == p.(current := ParseInt(cur).value, total := ParseInt(tot).value, message := "Extracting property " + cur + "/" + tot + "...")
  {
    match ParseInt(cur)
    case None => p
    case Some(i) =>
      var p1 := p.(current := i);
      match ParseInt(tot)
      case None => p1
      case Some(n) => p1.(total := n, message := "Extracting property " + cur + "/" + tot + "...")
  }

  /**
   * "Processing property I/N...", as the code reads it: the first word with
   * a slash is cut at the slash, and the ellipsis is removed from the first
   * half only, although the scraper prints it after the second.
   */
  function ProcessingEffectAsWritten(p: Progress, line: string): (p': Progress)
    ensures FirstSlashWord(line).None? ==> p' == p
    ensures FirstSlashWord(line).Some? ==> var h := Split(FirstSlashWord(line).value, "/");
      (|h| != 2 ==> p' == p) && (|h| == 2 ==> p' == ApplyCounter(p, ReplaceAll(h[0], "...", ""), h[1]))
  {
    match FirstSlashWord(line)
    case None => p
    case Some(w) =>
      var halves := Split(w, "/");
      if |halves| != 2 then p
      else ApplyCounter(p, ReplaceAll(halves[0], "...", ""), halves[1])
  }

  /** "Processing property I/N...", with the ellipsis removed from both halves before they are converted. */
  function ProcessingEffect(p: Progress, line: string): (p': Progress)
    ensures FirstSlashWord(line).None? ==> p' == p
    ensures FirstSlashWord(line).Some? ==> var h := Split(FirstSlashWord(line).value, "/");
      (|h| != 2 ==> p' == p) && (|h| == 2 ==> p' == ApplyCounter(p, ReplaceAll(h[0], "...", ""), ReplaceAll(h[1], "...", "")))
  {
    match FirstSlashWord(line)
    case None => p
    case Some(w) =>
      var halves := Split(w, "/");
      if |halves| != 2 then p
      else ApplyCounter(p, ReplaceAll(halves[0], "...", ""), ReplaceAll(halves[1], "...", ""))
  }

  /** The text after the first ": " of the first field, or the whole field when there is none. */
  function PricePart(s: string): (price: string)
    ensures !Contains(s, ": ") ==> price == s
    ensures |price| <= |s|
  {
    match Find(s, ": ")
    case None => s
    case Some(i) => s[i + 2..]
  }

  /** With a ": " in the field, the price is what follows the first one. */
  lemma PriceAfterFirstSeparator(s: string, i: nat)
    requires i + 2 <= |s| && s[i..i + 2] == ": "
    requires forall j :: 0 <= j < i ==> !StartsWith(s[j..], ": ")
    ensures PricePart(s) == s[i + 2..]
  {
    FindFirst(s, ": ", i);
  }

  /** The listing a progress line is read back as: four " | "-separated fields, and a placeholder link. */
  function RecordFields(line: string): (l: Option<Listing>)
    ensures l.Some? ==> l.value.url == CsvPlaceholder
    ensures l.Some? <==> |Split(line, " | ")| >= 4
    ensures l.Some? ==> var parts := Split(line, " | ");
      l.value.price == PricePart(parts[0]) && l.value.address == parts[1] && l.value.beds == parts[2] && l.value.baths == parts[3]
  {
    var parts := Split(line, " | ");
    if |parts| >= 4 then Some(Listing(PricePart(parts[0]), parts[1], parts[2], parts[3], CsvPlaceholder)) else None
  }

  function RecordEffect(p: Progress, line: string): (p': Progress)
    ensures RecordFields(line).None? ==> p' == p
    ensures RecordFields(line).Some? ==> p' == p.(properties := p.properties + [RecordFields(line).value])
  {
    match RecordFields(line)
    case None => p
    case Some(l) => p.(properties := p.properties + [l])
  }

  /** "Successfully extracted N properties": the message repeats the first number. */
  function ExtractedEffect(p: Progress, line: string): (p': Progress)
    ensures FirstDigitWord(line).None? ==> p' == p
    ensures FirstDigitWord(line).Some? ==> p' == p.(message := "Successfully extracted " + FirstDigitWord(line).value + " properties!")
  {
    match FirstDigitWord(line)
    case None => p
    case Some(w) => p.(message := "Successfully extracted " + w + " properties!")
  }

  /**
   * What a recogniser does to the record, as the code is written; only the
   * listing recogniser touches the listings, and only the three counting
   * recognisers touch the counters.
   */
  function Effect(rule: Rule, p: Progress, line: string): (p': Progress)
    ensures p'.status == p.status && p'.completed == p.completed && p'.sheetUrl == p.sheetUrl
    ensures rule != PropertyRecord ==> p'.properties == p.properties
    ensures rule == PropertyRecord ==> p' == RecordEffect(p, line)
    ensures rule == ProcessingProperty ==> p' == ProcessingEffectAsWritten(p, line)
    ensures rule !in {FoundCount, ContainerCount, ProcessingProperty} ==> p'.current == p.current && p'.total == p.total
  {
    match rule
    case Setup => p.(message := "Setting up Chrome browser...")
    case Loading => p.(message := "Loading page...")
    case Searching => p.(message := "Searching for properties...")
    case FoundCount => FoundEffect(p, line)
    case ContainerCount => ContainerEffect(p, line)
    case ProcessingProperty => ProcessingEffectAsWritten(p, line)
    case PropertyRecord => RecordEffect(p, line)
    case ExtractedCount => ExtractedEffect(p, line)
    case Uploaded => p.(message := "Data uploaded to Google Sheets successfully!")
    case Saved => p.(message := "Data saved locally and uploading to Google Sheets...")
    case ErrorLine => p.(message := "Error: " + line)
    case Unrecognised => p
  }

  // ---------------------------------------------------------------------------
  // One line, and a whole stream

  /**
   * One `readline()` result. An empty result (the pipe had nothing) changes
   * nothing; otherwise the stripped line is counted, offered to the link
   * accumulator, then to the recognisers.
   */
  function Step(r: Reader, output: string): (r': Reader)
    ensures output == "" ==> r' == r
    ensures output != "" ==> r'.lines == r.lines + 1
    ensures r'.progress.status == r.progress.status && r'.progress.completed == r.progress.completed
    ensures r'.progress.sheetUrl == r.progress.sheetUrl
      || (StartsWith(r.collected, "http") && r'.progress.sheetUrl == Some(r.collected))
    ensures Classify(Strip(output)) != PropertyRecord ==> r'.progress.properties == r.progress.properties
    ensures Classify(Strip(output)) == PropertyRecord && output != "" ==>
      r'.progress.properties == r.progress.properties + RecordOf(Strip(output))
    ensures Classify(Strip(output)) !in {FoundCount, ContainerCount, ProcessingProperty} ==>
      r'.progress.current == r.progress.current && r'.progress.total == r.progress.total
  {
    if output == "" then
      r
    else
      var line := Strip(output);
      var n := r.lines + 1;
      var c := CollectUrl(Announce(r.progress, n, line), r.collected, line);
      Reader(Effect(Classify(line), c.progress, line), n, c.collected)
  }

  /** The listings a line adds when the listing recogniser handles it: none or one. */
  function RecordOf(line: string): (ls: seq<Listing>)
    ensures |ls| <= 1
    ensures forall i :: 0 <= i < |ls| ==> ls[i].url == CsvPlaceholder
  {
    match RecordFields(line)
    case None => []
    case Some(l) => [l]
  }

  /** The listings one `readline()` result adds: the record of a line the listing recogniser takes, nothing otherwise. */
  function Gain(output: string): (ls: seq<Listing>)
    ensures |ls| <= 1
    ensures Classify(Strip(output)) != PropertyRecord ==> ls == []
  {
    if output != "" && Classify(Strip(output)) == PropertyRecord then RecordOf(Strip(output)) else []
  }

  /** The listings a sequence of `readline()` results adds, in order. */
  function Gathered(outputs: seq<string>): seq<Listing> {
    FlatMap(outputs, Gain)
  }

  /** The reading loop over a sequence of `readline()` results. */
  function Run(r: Reader, outputs: seq<string>): Reader
    decreases |outputs|
  {
    if |outputs| == 0 then r else Run(Step(r, outputs[0]), outputs[1..])
  }

  lemma {:induction false} RunAppend(r: Reader, a: seq<string>, b: seq<string>)
    ensures Run(r, a + b) == Run(Run(r, a), b)
    decreases |a|
  {
    if |a| == 0 {
      assert a + b == b;
    } else {
      assert (a + b)[1..] == a[1..] + b;
      RunAppend(Step(r, a[0]), a[1..], b);
    }
  }

  /**
   * Reading never changes the run status or the completion flag, and the
   * listings only grow: what was collected before stays, in order.
   */
  lemma {:induction false} RunAppendOnly(r: Reader, outputs: seq<string>)
    ensures Run(r, outputs).progress.status == r.progress.status
    ensures Run(r, outputs).progress.completed == r.progress.completed
    ensures r.progress.properties <= Run(r, outputs).progress.properties
    ensures Run(r, outputs).lines == r.lines + |Filter(outputs, NonEmptyLine)|
    decreases |outputs|
  {
    if |outputs| > 0 {
      var r1 := Step(r, outputs[0]);
      var counted := if NonEmptyLine(outputs[0]) then 1 else 0;
      assert r1.lines == r.lines + counted;
      assert r.progress.properties <= r1.progress.properties;
      RunAppendOnly(r1, outputs[1..]);
      assert Run(r, outputs) == Run(r1, outputs[1..]);
      assert |Filter(outputs, NonEmptyLine)| == counted + |Filter(outputs[1..], NonEmptyLine)|;
    }
  }

  /** Reading appends to the listings exactly what the recognised lines carry, in the order they were read. */
  lemma {:induction false} RunGathers(r: Reader, outputs: seq<string>)
    ensures Run(r, outputs).progress.properties == r.progress.properties + Gathered(outputs)
    decreases |outputs|
  {
    if |outputs| > 0 {
      var r1 := Step(r, outputs[0]);
      assert r1.progress.properties == r.progress.properties + Gain(outputs[0]);
      RunGathers(r1, outputs[1..]);
      assert Gathered(outputs) == Gain(outputs[0]) + Gathered(outputs[1..]);
    }
  }

  lemma GatheredAppend(a: seq<string>, b: seq<string>)
    ensures Gathered(a + b) == Gathered(a) + Gathered(b)
  {
    FlatMapAppend(a, b, Gain);
  }

  predicate NonEmptyLine(output: string) {
    output != ""
  }

  /** Once set, the link only ever changes to a collected text starting with "http". */
  lemma {:induction false} RunSheetUrl(r: Reader, outputs: seq<string>)
    requires r.progress.sheetUrl.None? || StartsWith(r.progress.sheetUrl.value, "http")
    ensures var u := Run(r, outputs).progress.sheetUrl; u.None? || StartsWith(u.value, "http")
    ensures r.progress.sheetUrl.Some? ==> Run(r, outputs).progress.sheetUrl.Some?
    decreases |outputs|
  {
    if |outputs| > 0 {
      RunSheetUrl(Step(r, outputs[0]), outputs[1..]);
    }
  }
}

=== FILE: listings.dfy ===
/**
 * One listing as both programs hold it: the dict the scraper builds with
 * the keys Price, Address, Beds, Baths and URL, and the dict the web app
 * rebuilds from the scraper's progress line.
 */
module Listings {

  datatype Listing = Listing(price: string, address: string, beds: string, baths: string, url: string)
}

=== FILE: progress.dfy ===
/**
 * The web app's shared progress record, the one the browser polls: the run
 * status, a current/total counter pair, a human-readable message, the
 * listings collected so far, the Google Sheets link and a completion flag.
 */
module ProgressState {
  import opened Wrappers
  import opened Listings

  datatype Status = Idle | Running | Completed | Error

  /**
   * `current` and `total` are whatever `int(...)` produced from the
   * scraper's output, so they are integers, not naturals. `sheetUrl` is
   * `None` until a link is set.
   */
  datatype Progress = Progress(
    status: Status,
    current: int,
    total: int,
    message: string,
    properties: seq<Listing>,
    sheetUrl: Option<string>,
    completed: bool)

  /** The record when the server starts. */
  const Initial := Progress(Idle, 0, 0, "Ready to scrape", [], None, false)
}

=== FILE: replay.dfy ===
/**
 * The two programs together: the web app reads back what the scraper
 * printed. A listing the scraper keeps reaches the web app's record as the
 * same four displayed fields with a placeholder link, the counters follow
 * the scraper's progress lines, and no other line adds a listing.
 */
module Replay {
  import opened Wrappers
  import opened Seqs
  import opened Text
  import opened Listings
  import opened ProgressState
  import opened Interpreter
  import WorkerLog
  import Extraction
  import Session

  /**
   * The phrases of the recognisers tried before the listing recogniser; a
   * listing line is read back only if none of them occurs in it ("Found"
   * alone is harmless: that recogniser also needs the selector phrase).
   */
  const Blockers: seq<string> := [
    "Starting Chrome browser", "Opening Apartments.com", "Waiting for page to load",
    "Searching for property data", "properties using selector",
    "Total property containers found:", "Processing property"
  ]

  /** A displayed field that survives the round trip: no bar, and no earlier recogniser's phrase. */
  predicate FieldClean(f: string) {
    '|' !in f && '\n' !in f && '\r' !in f && forall b :: 0 <= b < |Blockers| ==> !Contains(f, Blockers[b])
  }

  /**
   * A listing whose progress line the web app reads back field for field:
   * clean fields, a `$` in the price (the recogniser needs one somewhere),
   * and a bathroom text that does not end in whitespace (it ends the line,
   * which the reader strips).
   */
  predicate Printable(l: Listing) {
    && FieldClean(l.price) && FieldClean(l.address) && FieldClean(l.beds) && FieldClean(l.baths)
    && '$' in l.price
    && |l.baths| > 0 && !IsSpace(l.baths[|l.baths| - 1])
  }

  /** The listing the web app rebuilds from a progress line. */
  function ReadBack(l: Listing): Listing {
    Listing(l.price, l.address, l.beds, l.baths, CsvPlaceholder)
  }

  function ReadBackAll(ls: seq<Listing>): (rs: seq<Listing>)
    ensures |rs| == |ls|
    ensures forall i :: 0 <= i < |ls| ==> rs[i] == ReadBack(ls[i])
  {
    seq(|ls|, i requires 0 <= i < |ls| => ReadBack(ls[i]))
  }

  // ---------------------------------------------------------------------------
  // Single lines

  /** What the reader keeps of a rendered line whose ends are not blank: the line without its break. */
  lemma StripRendered(line: WorkerLog.Line)
    requires var c := WorkerLog.Content(line); c == [] || (!IsSpace(c[0]) && !IsSpace(c[|c| - 1]))
    ensures Strip(WorkerLog.Render(line)) == WorkerLog.Content(line)
  {
    StripLine(WorkerLog.Content(line));
  }

  /** The reader strips the line break off a line whose ends are not blank. */
  lemma StripLine(c: string)
    requires c == [] || (!IsSpace(c[0]) && !IsSpace(c[|c| - 1]))
    ensures Strip(c + "\n") == c
  {
    assert "" + c + "\n" == c + "\n";
    StripPadded("", c, "\n");
    StripNoop(c);
  }

  /** A line without `$` adds no listing. */
  lemma QuietLine(line: WorkerLog.Line)
    requires '$' !in WorkerLog.Content(line)
    ensures Gain(WorkerLog.Render(line)) == []
  {
    var out := WorkerLog.Render(line);
    StripChars(out);
    assert '$' !in out;
    RecordNeedsDollar(Strip(out));
  }

  lemma DigitsHaveNo(d: string, c: char)
    requires IsDigits(d) && !IsDigit(c)
    ensures c !in d
  {
  }

  /** The start of a listing line, up to the price. */
  function Head(k: nat): string {
    "\U{2705} Property " + NatToString(k) + ": "
  }

  lemma HeadShape(k: nat)
    ensures |Head(k)| == 13 + |NatToString(k)|
    ensures '|' !in Head(k) && '$' !in Head(k)
    ensures Head(k)[|Head(k)| - 2..] == ": " && Head(k)[2..10] == "Property"
    ensures forall j :: 0 <= j < |Head(k)| - 2 ==> Head(k)[j] != ':'
  {
    var d := NatToString(k);
    DigitsHaveNo(d, '|');
    DigitsHaveNo(d, '$');
    DigitsHaveNo(d, ':');
    var h := Head(k);
    var p := "\U{2705} Property ";
    assert |p| == 11 && p[2..10] == "Property";
    assert h == p + d + ": ";
    assert h[2..10] == p[2..10];
    assert h[|h| - 2..] == ": ";
    forall j | 0 <= j < |h| - 2
      ensures h[j] != ':'
    {
      if j >= 11 {
        assert h[j] == d[j - 11];
      }
    }
  }

  lemma ListingTextShape(k: nat, l: Listing)
    ensures WorkerLog.PropertyText(k, l) == Head(k) + l.price + " | " + l.address + " | " + l.beds + " | " + l.baths
  {
  }

  /** Concatenation regrouped to the right, the way `Split` consumes it. */
  lemma Bars(x: string, y: string, z: string, w: string)
    ensures x + " | " + y + " | " + z + " | " + w == x + " | " + (y + " | " + (z + " | " + w))
  {
  }

  /** The first ": " of the first field is the one after the count, so the price is what follows it. */
  lemma PriceReadBack(k: nat, price: string)
    ensures PricePart(Head(k) + price) == price
  {
    var h := Head(k);
    var s := h + price;
    HeadShape(k);
    var i := |h| - 2;
    assert s[i..i + 2] == ": ";
    forall j | 0 <= j < i
      ensures !StartsWith(s[j..], ": ")
    {
      assert s[j..][0] == h[j];
    }
    FindFirst(s, ": ", i);
    assert s[i + 2..] == price;
  }

  /** Four bar-free fields joined by spaced bars split back into the four. */
  lemma SplitFour(a: string, x: string, y: string, z: string)
    requires '|' !in a && '|' !in x && '|' !in y && '|' !in z
    ensures Split(a + " | " + x + " | " + y + " | " + z, " | ") == [a, x, y, z]
  {
    var r1 := x + " | " + (y + " | " + z);
    Bars(a, x, y, z);
    SplitThree(x, y, z);
    SplitBar(a, r1);
  }

  lemma SplitThree(x: string, y: string, z: string)
    requires '|' !in x && '|' !in y && '|' !in z
    ensures Split(x + " | " + (y + " | " + z), " | ") == [x, y, z]
  {
    var r2 := y + " | " + z;
    SplitBarNone(z);
    SplitBar(y, z);
    SplitBar(x, r2);
  }

  /** A listing line splits at its bars into the head with the price, and the three other fields. */
  lemma ListingSplit(k: nat, l: Listing)
    requires '|' !in l.price && '|' !in l.address && '|' !in l.beds && '|' !in l.baths
    ensures Split(WorkerLog.PropertyText(k, l), " | ") == [Head(k) + l.price, l.address, l.beds, l.baths]
  {
    HeadShape(k);
    var a := Head(k) + l.price;
    assert '|' !in a;
    ListingTextShape(k, l);
    SplitFour(a, l.address, l.beds, l.baths);
  }

  /** The shape every blocker phrase has, which keeps it from straddling a field boundary. */
  predicate BlockerLike(t: string) {
    && |t| > 11 && t[0] != ' ' && t[0] != ':' && t[|t| - 1] != ' '
    && forall i :: 0 <= i < |t| ==> t[i] != '|' && !IsDigit(t[i])
  }

  lemma BlockerHasNoBar(t: string)
    requires BlockerLike(t)
    ensures '|' !in t
  {
  }

  lemma BlockersShape()
    ensures forall b :: 0 <= b < |Blockers| ==> BlockerLike(Blockers[b])
  {
    forall b | 0 <= b < |Blockers|
      ensures BlockerLike(Blockers[b])
    {
      BlockerShape(b);
    }
  }

  lemma BlockerShape(b: nat)
    requires b < |Blockers|
    ensures BlockerLike(Blockers[b])
  {
    if b == 0 {
      Blocker0();
    } else if b == 1 {
      Blocker1();
    } else if b == 2 {
      Blocker2();
    } else if b == 3 {
      Blocker3();
    } else if b == 4 {
      Blocker4();
    } else if b == 5 {
      Blocker5();
    } else {
      Blocker6();
    }
  }

  lemma Blocker0() ensures BlockerLike(Blockers[0]) {}
  lemma Blocker1() ensures BlockerLike(Blockers[1]) {}
  lemma Blocker2() ensures BlockerLike(Blockers[2]) {}
  lemma Blocker3() ensures BlockerLike(Blockers[3]) {}
  lemma Blocker4() ensures BlockerLike(Blockers[4]) {}
  lemma Blocker5() ensures BlockerLike(Blockers[5]) {}
  lemma Blocker6() ensures BlockerLike(Blockers[6]) {}

  /** A blocker phrase occurs in a listing line only if it occurs in one of the fields. */
  lemma BlockerAbsent(k: nat, l: Listing, t: string)
    requires BlockerLike(t)
    requires !Contains(l.price, t) && !Contains(l.address, t) && !Contains(l.beds, t) && !Contains(l.baths, t)
    ensures !Contains(WorkerLog.PropertyText(k, l), t)
  {
    var d := NatToString(k);
    BlockerHasNoBar(t);
    var fields := l.price + " | " + (l.address + " | " + (l.beds + " | " + l.baths));
    NotContainsAroundBar(l.beds, l.baths, t);
    NotContainsAroundBar(l.address, l.beds + " | " + l.baths, t);
    NotContainsAroundBar(l.price, l.address + " | " + (l.beds + " | " + l.baths), t);
    assert !Contains(": " + fields, t) by {
      if Contains(": " + fields, t) {
        ContainsAfterPrefix(": ", fields, t);
        assert false;
      }
    }
    NotContainsLonger("\U{2705} Property ", t);
    ListingTextShape(k, l);
    Bars(Head(k) + l.price, l.address, l.beds, l.baths);
    assert WorkerLog.PropertyText(k, l) == "\U{2705} Property " + d + (": " + fields);
    if Contains(WorkerLog.PropertyText(k, l), t) {
      ContainsAroundDigits("\U{2705} Property ", d, ": " + fields, t);
      assert false;
    }
  }

  /** No phrase of an earlier recogniser occurs in a printable listing's line. */
  lemma ListingUnblocked(k: nat, l: Listing)
    requires Printable(l)
    ensures forall b :: 0 <= b < |Blockers| ==> !Contains(WorkerLog.PropertyText(k, l), Blockers[b])
  {
    BlockersShape();
    forall b | 0 <= b < |Blockers|
      ensures !Contains(WorkerLog.PropertyText(k, l), Blockers[b])
    {
      BlockerAbsent(k, l, Blockers[b]);
    }
  }

  /** A listing line carries what the listing recogniser looks for. */
  lemma ListingMarked(k: nat, l: Listing)
    requires '$' in l.price
    ensures var s := WorkerLog.PropertyText(k, l);
      Contains(s, "Property") && Contains(s, "$") && Contains(s, "|")
  {
    var s := WorkerLog.PropertyText(k, l);
    var h := Head(k);
    var rest := " | " + l.address + " | " + l.beds + " | " + l.baths;
    HeadShape(k);
    ListingTextShape(k, l);
    assert s == h + l.price + rest;
    assert s[2..10] == h[2..10];
    ContainsAt(s, "Property", 2);
    assert '$' in s;
    ContainsChar(s, '$');
    assert s[|h| + |l.price| + 1] == rest[1] == '|';
    ContainsChar(s, '|');
  }

  /** A printable listing's line goes to the listing recogniser. */
  lemma ListingClassified(k: nat, l: Listing)
    requires Printable(l)
    ensures Classify(WorkerLog.PropertyText(k, l)) == PropertyRecord
  {
    ListingUnblocked(k, l);
    ListingMarked(k, l);
    var s := WorkerLog.PropertyText(k, l);
    assert !Contains(s, Blockers[0]) && !Contains(s, Blockers[1]) && !Contains(s, Blockers[2]) && !Contains(s, Blockers[3]);
    assert !Contains(s, Blockers[4]) && !Contains(s, Blockers[5]) && !Contains(s, Blockers[6]);
  }

  /** A kept listing's progress line adds exactly that listing, with the placeholder link. */
  lemma ListingLineReplays(k: nat, l: Listing)
    requires Printable(l)
    ensures Gain(WorkerLog.Render(WorkerLog.Property(k, l))) == [ReadBack(l)]
  {
    var s := WorkerLog.PropertyText(k, l);
    ListingTextShape(k, l);
    assert s[|s| - 1] == l.baths[|l.baths| - 1];
    StripRendered(WorkerLog.Property(k, l));
    ListingClassified(k, l);
    ListingSplit(k, l);
    PriceReadBack(k, l.price);
  }

  // ---------------------------------------------------------------------------
  // The processing line

  /** The counter word of a processing line: the index, a slash, the count and the ellipsis. */
  function CounterWord(i: nat, n: nat): string {
    NatToString(i) + "/" + NatToString(n) + "..."
  }

  lemma CounterWordShape(i: nat, n: nat)
    ensures IsWord(CounterWord(i, n)) && HasSlash(CounterWord(i, n))
    ensures CounterWord(i, n) == NatToString(i) + ['/'] + (NatToString(n) + "...")
  {
    var d1, d2 := NatToString(i), NatToString(n);
    var w := CounterWord(i, n);
    forall k | 0 <= k < |w|
      ensures !IsSpace(w[k])
    {
      if k < |d1| {
        assert w[k] == d1[k];
      } else if k > |d1| && k < |d1| + 1 + |d2| {
        assert w[k] == d2[k - |d1| - 1];
      }
    }
    assert w[|d1|] == '/';
  }

  lemma HouseIsWord() ensures IsWord("\U{1F3E0}") {}
  lemma ProcessingIsWord() ensures IsWord("Processing") {}
  lemma PropertyIsWord() ensures IsWord("property") {}

  /** A processing line reads as four words, the last being the counter word. */
  lemma ProcessingWords(i: nat, n: nat)
    ensures Words(WorkerLog.ProcessingText(i, n)) == ["\U{1F3E0}", "Processing", "property", CounterWord(i, n)]
  {
    var w := CounterWord(i, n);
    var b := "Processing" + [' '] + ("property" + [' '] + w);
    ProcessingTextParts(i, n);
    CounterWords(i, n);
    WordsSpace("\U{1F3E0}", ' ', b);
    HouseIsWord();
    WordsOfWord("\U{1F3E0}");
  }

  /** The words after the house emoji. */
  lemma CounterWords(i: nat, n: nat)
    ensures Words("Processing" + [' '] + ("property" + [' '] + CounterWord(i, n))) == ["Processing", "property", CounterWord(i, n)]
  {
    var w := CounterWord(i, n);
    var c := "property" + [' '] + w;
    CounterWordAlone(i, n);
    WordsSpace("Processing", ' ', c);
    ProcessingIsWord();
    WordsOfWord("Processing");
  }

  lemma CounterWordAlone(i: nat, n: nat)
    ensures Words("property" + [' '] + CounterWord(i, n)) == ["property", CounterWord(i, n)]
  {
    var w := CounterWord(i, n);
    CounterWordShape(i, n);
    WordsSpace("property", ' ', w);
    PropertyIsWord();
    WordsOfWord("property");
    WordsOfWord(w);
  }

  lemma ProcessingTextParts(i: nat, n: nat)
    ensures WorkerLog.ProcessingText(i, n) == "\U{1F3E0}" + [' '] + ("Processing" + [' '] + ("property" + [' '] + CounterWord(i, n)))
  {
  }

  lemma ProcessingSlashWord(i: nat, n: nat)
    ensures FirstSlashWord(WorkerLog.ProcessingText(i, n)) == Some(CounterWord(i, n))
    ensures Split(CounterWord(i, n), "/") == [NatToString(i), NatToString(n) + "..."]
  {
    var ws := Words(WorkerLog.ProcessingText(i, n));
    ProcessingWords(i, n);
    CounterWordShape(i, n);
    assert !HasSlash(ws[0]) && !HasSlash(ws[1]) && !HasSlash(ws[2]);
    FirstIndexAt(ws, HasSlash, 3);
    var d1, d2 := NatToString(i), NatToString(n);
    DigitsHaveNo(d1, '/');
    DigitsHaveNo(d2, '/');
    assert '/' !in d2 + "...";
    SplitOnce(d1, '/', d2 + "...");
  }

  /** The index half has no ellipsis to remove and converts to the index. */
  lemma IndexHalf(i: nat)
    ensures ReplaceAll(NatToString(i), "...", "") == NatToString(i)
    ensures ParseInt(NatToString(i)) == Some(i)
  {
    var d := NatToString(i);
    DigitsHaveNo(d, '.');
    MissingChar(d, "...", '.');
    ParseIntDigits(d);
  }

  /** The count half converts to the count once the trailing ellipsis is removed. */
  lemma CountHalf(n: nat)
    ensures ReplaceAll(NatToString(n) + "...", "...", "") == NatToString(n)
    ensures ParseInt(NatToString(n)) == Some(n)
  {
    var d := NatToString(n);
    DigitsHaveNo(d, '.');
    ReplaceAllTrailing(d, "...");
    ParseIntDigits(d);
  }

  /** With the ellipsis still attached, the count half does not convert. */
  lemma CountHalfAsWritten(n: nat)
    ensures ParseInt(NatToString(n) + "...") == None
  {
    var d := NatToString(n);
    assert (d + "...")[|d|] == '.';
    ParseIntRejects(d + "...", '.');
  }

  /** With the ellipsis removed from both halves, the scraper's processing line "I/N..." sets the counter to I of N. */
  lemma ProcessingCounter(p: Progress, i: nat, n: nat)
    ensures ProcessingEffect(p, WorkerLog.ProcessingText(i, n))
      == p.(current := i, total := n, message := "Extracting property " + NatToString(i) + "/" + NatToString(n) + "...")
  {
    ProcessingSlashWord(i, n);
    IndexHalf(i);
    CountHalf(n);
  }

  /**
   * As the code is written, the second half of "I/N..." keeps the ellipsis
   * and fails to convert: only the current index is set, and the total and
   * the message keep their earlier values.
   */
  lemma ProcessingCounterAsWritten(p: Progress, i: nat, n: nat)
    ensures ProcessingEffectAsWritten(p, WorkerLog.ProcessingText(i, n)) == p.(current := i)
  {
    ProcessingSlashWord(i, n);
    IndexHalf(i);
    CountHalfAsWritten(n);
  }

  /** The words before the index: the part of a processing line that no counter changes. */
  const ProcessingLead := "\U{1F3E0} Processing property "

  /** A digit-free phrase missing from the lead and longer than the slash and the ellipsis is missing from the whole line. */
  lemma ProcessingAbsent(i: nat, n: nat, t: string)
    requires BlockerLike(t) && !Contains(ProcessingLead, t)
    ensures !Contains(WorkerLog.ProcessingText(i, n), t)
  {
    var d1, d2 := NatToString(i), NatToString(n);
    var rest := "/" + d2 + "...";
    assert WorkerLog.ProcessingText(i, n) == ProcessingLead + d1 + rest;
    NotContainsLonger("/", t);
    NotContainsLonger("...", t);
    if Contains(rest, t) {
      ContainsAroundDigits("/", d2, "...", t);
      assert false;
    }
    if Contains(WorkerLog.ProcessingText(i, n), t) {
      ContainsAroundDigits(ProcessingLead, d1, rest, t);
      assert false;
    }
  }

  /** A processing line goes to the processing recogniser. */
  lemma ProcessingClassified(i: nat, n: nat)
    ensures Classify(WorkerLog.ProcessingText(i, n)) == ProcessingProperty
  {
    var s := WorkerLog.ProcessingText(i, n);
    ProcessingUnblocked(i, n);
    ProcessingMarked(i, n);
    assert !Contains(s, Blockers[0]) && !Contains(s, Blockers[1]) && !Contains(s, Blockers[2]);
    assert !Contains(s, Blockers[3]) && !Contains(s, Blockers[4]) && !Contains(s, Blockers[5]);
  }

  /** None of the phrases of the recognisers tried before it occurs in a processing line. */
  lemma ProcessingUnblocked(i: nat, n: nat)
    ensures forall b :: 0 <= b < 6 ==> !Contains(WorkerLog.ProcessingText(i, n), Blockers[b])
  {
    LeadUnblocked();
    forall b | 0 <= b < 6
      ensures !Contains(WorkerLog.ProcessingText(i, n), Blockers[b])
    {
      BlockerShape(b);
      ProcessingAbsent(i, n, Blockers[b]);
    }
  }

  lemma LeadUnblocked()
    ensures forall b :: 0 <= b < 6 ==> !Contains(ProcessingLead, Blockers[b])
  {
    assert |ProcessingLead| == 22;
    NotContainsLonger(ProcessingLead, Blockers[0]);
    NotContainsOther(ProcessingLead, Blockers[1]);
    NotContainsLonger(ProcessingLead, Blockers[2]);
    NotContainsLonger(ProcessingLead, Blockers[3]);
    NotContainsLonger(ProcessingLead, Blockers[4]);
    NotContainsLonger(ProcessingLead, Blockers[5]);
  }

  lemma ProcessingMarked(i: nat, n: nat)
    ensures Contains(WorkerLog.ProcessingText(i, n), "Processing property")
  {
    assert WorkerLog.ProcessingText(i, n) == ProcessingLead + CounterWord(i, n);
    LeadMarked();
    ContainsExtended(ProcessingLead, CounterWord(i, n), "Processing property");
  }

  lemma LeadMarked()
    ensures Contains(ProcessingLead, "Processing property")
  {
    var w := "Processing property";
    assert ProcessingLead == "\U{1F3E0} " + w + " ";
    assert ProcessingLead[2..21] == w;
    ContainsAt(ProcessingLead, w, 2);
  }

  /**
   * The progress line of container `i` of `n`, as the code reads it, sets
   * only the current index: the total and the message stay what they were
   * (the message may still be the line counter's), and no listing is added.
   */
  lemma ProcessingLineReplays(r: Reader, i: nat, n: nat)
    ensures var q := Step(r, WorkerLog.Render(WorkerLog.Processing(i, n))).progress;
      q.current == i && q.total == r.progress.total && q.properties == r.progress.properties
      && q.message == Announce(r.progress, r.lines + 1, WorkerLog.ProcessingText(i, n)).message
  {
    var s := WorkerLog.ProcessingText(i, n);
    assert s[|s| - 1] == '.';
    StripRendered(WorkerLog.Processing(i, n));
    StepStripped(r, WorkerLog.Render(WorkerLog.Processing(i, n)), s);
    var c := CollectUrl(Announce(r.progress, r.lines + 1, s), r.collected, s);
    ProcessingEffectOn(c.progress, i, n);
  }

  /** The processing recogniser handles a processing line, and only its index is taken. */
  lemma ProcessingEffectOn(p: Progress, i: nat, n: nat)
    ensures var s := WorkerLog.ProcessingText(i, n);
      Effect(Classify(s), p, s) == p.(current := i)
  {
    ProcessingClassified(i, n);
    ProcessingCounterAsWritten(p, i, n);
  }

  // ---------------------------------------------------------------------------
  // The count lines

  /** A number the scraper prints is a word of its own. */
  lemma DigitsAreWord(d: string)
    requires IsDigits(d)
    ensures IsWord(d)
  {
    forall i | 0 <= i < |d|
      ensures !IsSpace(d[i])
    {
      assert IsDigit(d[i]);
    }
  }

  /** A lone symbol is a word, and not a number. */
  lemma SymbolWord(c: char)
    requires !IsSpace(c) && !IsDigit(c)
    ensures IsWord([c]) && !IsDigits([c])
  {
    assert [c][0] == c;
  }

  /** A run of letters is a word, and not a number. */
  lemma PlainWord(w: string)
    requires |w| > 0 && forall i :: 0 <= i < |w| ==> 'A' <= w[i] <= 'z'
    ensures IsWord(w) && !IsDigits(w)
  {
    assert !IsDigit(w[0]);
  }

  /** A leading word that is not a number does not change which number comes first. */
  lemma SkipWord(x: string, tail: string)
    requires IsWord(x) && !IsDigits(x)
    ensures FirstDigitWord(x + [' '] + tail) == FirstDigitWord(tail)
  {
    WordsSpace(x, ' ', tail);
    WordsOfWord(x);
    var ws, rs := Words(x + [' '] + tail), Words(tail);
    assert ws == [x] + rs;
    match FirstIndex(rs, IsDigits)
    case Some(k) =>
      assert ws[k + 1] == rs[k];
      forall j | 1 <= j < k + 1
        ensures !IsDigits(ws[j])
      {
        assert ws[j] == rs[j - 1];
      }
      FirstIndexAt(ws, IsDigits, k + 1);
    case None =>
      forall j | 1 <= j < |ws|
        ensures !IsDigits(ws[j])
      {
        assert ws[j] == rs[j - 1];
      }
  }

  /** A number at the head of a line is its first number. */
  lemma DigitsFirst(d: string, rest: string)
    requires IsDigits(d)
    ensures FirstDigitWord(d + [' '] + rest) == Some(d)
  {
    WordsSpace(d, ' ', rest);
    DigitsAreWord(d);
    WordsOfWord(d);
    var ws := Words(d + [' '] + rest);
    assert ws == [d] + Words(rest);
    FirstIndexAt(ws, IsDigits, 0);
  }

  /** Moving the parentheses of a five-part line so that it reads word by word. */
  lemma Regroup(a: string, b: string, d: string, c: string, e: string)
    ensures a + [' '] + b + [' '] + d + ([' '] + c) + e == a + [' '] + (b + [' '] + (d + [' '] + (c + e)))
  {
  }

  /** The found line, cut at the spaces around its count. */
  lemma FoundTextParts(n: nat, selector: string)
    ensures WorkerLog.Content(WorkerLog.Found(n, selector))
      == "\U{2705}" + [' '] + ("Found" + [' '] + (NatToString(n) + [' '] + ("properties using selector: " + selector)))
  {
    var x, y := "\U{2705}" + [' '] + "Found" + [' '], [' '] + "properties using selector: ";
    assert x == "\U{2705} Found " && y == " properties using selector: ";
    Regroup("\U{2705}", "Found", NatToString(n), "properties using selector: ", selector);
  }

  /** The count is the first number of the found line. */
  lemma FoundLineCount(n: nat, selector: string)
    ensures FirstDigitWord(WorkerLog.Content(WorkerLog.Found(n, selector))) == Some(NatToString(n))
  {
    var tail := NatToString(n) + [' '] + ("properties using selector: " + selector);
    FoundTextParts(n, selector);
    SymbolWord('\U{2705}');
    SkipWord("\U{2705}", "Found" + [' '] + tail);
    PlainWord("Found");
    SkipWord("Found", tail);
    DigitsFirst(NatToString(n), "properties using selector: " + selector);
  }

  /**
   * The web app reads the total from the scraper's found line: the number
   * of cards the selector matched.
   */
  lemma FoundLineSetsTotal(p: Progress, n: nat, selector: string)
    ensures FoundEffect(p, WorkerLog.Content(WorkerLog.Found(n, selector)))
      == p.(total := n, message := "Found " + NatToString(n) + " properties! Extracting data...")
  {
    FoundLineCount(n, selector);
  }

  /** The scraper's closing line (printed after an empty line) names the number of listings it kept. */
  function ExtractedText(n: nat): string {
    "\U{1F389} Successfully extracted " + NatToString(n) + " properties!"
  }

  lemma ExtractedTextParts(n: nat)
    ensures ExtractedText(n) == "\U{1F389}" + [' '] + ("Successfully" + [' '] + ("extracted" + [' '] + (NatToString(n) + [' '] + "properties!")))
  {
  }

  /** The count is the first number of the closing line. */
  lemma ExtractedLineCount(n: nat)
    ensures FirstDigitWord(ExtractedText(n)) == Some(NatToString(n))
  {
    var tail := NatToString(n) + [' '] + "properties!";
    var rest := "extracted" + [' '] + tail;
    ExtractedTextParts(n);
    SymbolWord('\U{1F389}');
    SkipWord("\U{1F389}", "Successfully" + [' '] + rest);
    PlainWord("Successfully");
    SkipWord("Successfully", rest);
    PlainWord("extracted");
    SkipWord("extracted", tail);
    DigitsFirst(NatToString(n), "properties!");
  }

  /** The web app repeats the number from the scraper's closing line. */
  lemma ExtractedLineMessage(p: Progress, n: nat)
    ensures ExtractedEffect(p, ExtractedText(n)) == p.(message := "Successfully extracted " + NatToString(n) + " properties!")
  {
    ExtractedLineCount(n);
  }

  /** The phrase before the colon of the containers line. */
  const ContainersLead := "\U{1F4CB} Total property containers found"

  /** The containers line splits at its only colon into the phrase and the spaced count. */
  lemma ContainerPieces(n: nat)
    ensures Split(WorkerLog.Content(WorkerLog.Containers(n)), ":") == [ContainersLead, " " + NatToString(n)]
  {
    var d := NatToString(n);
    assert WorkerLog.Content(WorkerLog.Containers(n)) == ContainersLead + [':'] + (" " + d);
    DigitsHaveNo(d, ':');
    assert ':' !in " " + d;
    SplitOnce(ContainersLead, ':', " " + d);
  }

  /** `int()` of the spaced count is the count. */
  lemma SpacedCount(n: nat)
    ensures ParseInt(Strip(" " + NatToString(n))) == Some(n)
  {
    SpacedDigits(NatToString(n));
    ParseIntDigits(NatToString(n));
  }

  /** A space before a number is stripped away. */
  lemma SpacedDigits(d: string)
    requires IsDigits(d)
    ensures Strip(" " + d) == d
  {
    assert IsDigit(d[0]) && IsDigit(d[|d| - 1]);
    StripLeadingSpace(d);
  }

  /**
   * The web app reads the total from the scraper's containers line: the
   * piece after the colon is the count.
   */
  lemma ContainerLineSetsTotal(p: Progress, n: nat)
    ensures ContainerEffect(p, WorkerLog.Content(WorkerLog.Containers(n)))
      == p.(total := n, message := "Processing " + NatToString(n) + " properties...")
  {
    ContainerPieces(n);
    SpacedCount(n);
  }

  /** Letters the containers line lacks before its count: each is in one of the earlier phrases. */
  lemma ContainersLeadLacks()
    ensures var l := ContainersLead + ": "; 'S' !in l && 'O' !in l && 'W' !in l && 'g' !in l
  {
    var w1, w2, w3, w4 := "\U{1F4CB} Total ", "property ", "containers ", "found: ";
    assert ContainersLead + ": " == w1 + w2 + w3 + w4;
    WordLacks(w1);
    WordLacks(w2);
    WordLacks(w3);
    WordLacks(w4);
  }

  lemma WordLacks(w: string)
    requires w in ["\U{1F4CB} Total ", "property ", "containers ", "found: "]
    ensures 'S' !in w && 'O' !in w && 'W' !in w && 'g' !in w
  {
  }

  /** The containers line holds its own phrase before the count. */
  lemma ContainersLeadOwn()
    ensures Contains(ContainersLead + ": ", "Total property containers found:")
  {
    var t := "Total property containers found:";
    assert ContainersLead + ": " == "\U{1F4CB} " + (t + " ");
    PhraseAt("\U{1F4CB} ", t, " ");
  }

  /** A phrase occurs where it is placed. */
  lemma PhraseAt(a: string, t: string, b: string)
    ensures Contains(a + (t + b), t)
  {
    assert (a + (t + b))[|a|..|a| + |t|] == t;
    ContainsAt(a + (t + b), t, |a|);
  }

  /** Nor does the count bring those letters. */
  lemma ContainerLineLacks(n: nat)
    ensures var s := WorkerLog.Content(WorkerLog.Containers(n)); 'S' !in s && 'O' !in s && 'W' !in s && 'g' !in s
  {
    var d := NatToString(n);
    assert WorkerLog.Content(WorkerLog.Containers(n)) == ContainersLead + ": " + d;
    ContainersLeadLacks();
    DigitsHaveNo(d, 'S');
    DigitsHaveNo(d, 'O');
    DigitsHaveNo(d, 'W');
    DigitsHaveNo(d, 'g');
  }

  /**
   * A containers line goes to the container-count recogniser: each earlier
   * recogniser's phrase has a letter the line lacks.
   */
  lemma ContainerClassified(n: nat)
    ensures Classify(WorkerLog.Content(WorkerLog.Containers(n))) == ContainerCount
  {
    ContainerUnmatched(n);
    ContainerMatched(n);
  }

  /** The phrases of the recognisers tried before the container count are absent. */
  lemma ContainerUnmatched(n: nat)
    ensures var s := WorkerLog.Content(WorkerLog.Containers(n));
      !Contains(s, "Starting Chrome browser") && !Contains(s, "Opening Apartments.com")
      && !Contains(s, "Waiting for page to load") && !Contains(s, "Searching for property data")
      && !Contains(s, "properties using selector")
  {
    var s := WorkerLog.Content(WorkerLog.Containers(n));
    ContainerLineLacks(n);
    UnmatchedBy(s, "Starting Chrome browser", 'S');
    UnmatchedBy(s, "Opening Apartments.com", 'O');
    UnmatchedBy(s, "Waiting for page to load", 'W');
    UnmatchedBy(s, "Searching for property data", 'S');
    UnmatchedBy(s, "properties using selector", 'g');
  }

  /** The first letter of a phrase, or the `g` of "using", is missing from a line the phrase is then absent from. */
  lemma UnmatchedBy(s: string, t: string, c: char)
    requires |t| > 15 && (t[0] == c || t[15] == c) && c !in s
    ensures !Contains(s, t)
  {
    MissingChar(s, t, c);
  }

  lemma ContainerMatched(n: nat)
    ensures Contains(WorkerLog.Content(WorkerLog.Containers(n)), "Total property containers found:")
  {
    ContainersLeadOwn();
    assert WorkerLog.Content(WorkerLog.Containers(n)) == ContainersLead + ": " + NatToString(n);
    ContainsExtended(ContainersLead + ": ", NatToString(n), "Total property containers found:");
  }

  /**
   * The containers line sets the total to the number of containers and
   * announces it, leaving the index and the listings as they were.
   */
  lemma ContainerLineReplays(r: Reader, n: nat)
    ensures var q := Step(r, WorkerLog.Render(WorkerLog.Containers(n))).progress;
      q.total == n && q.message == "Processing " + NatToString(n) + " properties..."
      && q.current == r.progress.current && q.properties == r.progress.properties
  {
    var s := WorkerLog.Content(WorkerLog.Containers(n));
    var d := NatToString(n);
    assert s == ContainersLead + ": " + d;
    assert s[0] == '\U{1F4CB}' && s[|s| - 1] == d[|d| - 1];
    StripRendered(WorkerLog.Containers(n));
    StepStripped(r, WorkerLog.Render(WorkerLog.Containers(n)), s);
    var c := CollectUrl(Announce(r.progress, r.lines + 1, s), r.collected, s);
    ContainerClassified(n);
    ContainerLineSetsTotal(c.progress, n);
  }

  /** One step on an output whose stripped form is known. */
  lemma StepStripped(r: Reader, output: string, s: string)
    requires output != "" && Strip(output) == s
    ensures Step(r, output).progress == Effect(Classify(s), CollectUrl(Announce(r.progress, r.lines + 1, s), r.collected, s).progress, s)
  {
  }

  // ---------------------------------------------------------------------------
  // Whole logs

  /** The listings a log reports as kept, in order. */
  function Recorded(lines: seq<WorkerLog.Line>): (ls: seq<Listing>)
    ensures |ls| <= |lines|
    decreases |lines|
  {
    if |lines| == 0 then []
    else (if lines[0].Property? then [lines[0].listing] else []) + Recorded(lines[1..])
  }

  lemma {:induction false} RecordedAppend(a: seq<WorkerLog.Line>, b: seq<WorkerLog.Line>)
    ensures Recorded(a + b) == Recorded(a) + Recorded(b)
    decreases |a|
  {
    if |a| == 0 {
      assert a + b == b;
    } else {
      var ab := a + b;
      var first := if a[0].Property? then [a[0].listing] else [];
      assert ab[0] == a[0];
      assert ab[1..] == a[1..] + b;
      assert Recorded(ab) == first + Recorded(a[1..] + b);
      RecordedAppend(a[1..], b);
      assert Recorded(a) == first + Recorded(a[1..]);
    }
  }

  /** The listings the extraction loop reports are exactly the ones its gate keeps, in order. */
  lemma {:induction false} RecordedVerdicts(ls: seq<Listing>, ok: Listing -> bool, count: nat, visited: nat, kept: nat)
    ensures Recorded(Extraction.VerdictLog(ls, ok, count, visited, kept)) == Filter(ls, ok)
    decreases |ls|
  {
    if |ls| > 0 {
      var verdict := if ok(ls[0]) then WorkerLog.Property(kept + 1, ls[0]) else WorkerLog.Skipped(visited + 1);
      var kept' := if ok(ls[0]) then kept + 1 else kept;
      var tail := Extraction.VerdictLog(ls[1..], ok, count, visited + 1, kept');
      var head := WorkerLog.ProcessingLines(visited + 1, count) + [verdict];
      assert Extraction.VerdictLog(ls, ok, count, visited, kept) == head + tail;
      RecordedAppend(head, tail);
      RecordedVerdicts(ls[1..], ok, count, visited + 1, kept');
      assert head[2..][1..] == [];
      assert Recorded(head[2..]) == (if ok(ls[0]) then [ls[0]] else []);
      assert head[1..][1..] == head[2..];
      assert Recorded(head) == Recorded(head[2..]);
    }
  }

  /** The extraction loop reports no selector match. */
  lemma {:induction false} VerdictsFindNothing(ls: seq<Listing>, ok: Listing -> bool, count: nat, visited: nat, kept: nat)
    ensures forall line :: line in Extraction.VerdictLog(ls, ok, count, visited, kept) ==> !line.Found?
    decreases |ls|
  {
    if |ls| > 0 {
      var verdict := if ok(ls[0]) then WorkerLog.Property(kept + 1, ls[0]) else WorkerLog.Skipped(visited + 1);
      var kept' := if ok(ls[0]) then kept + 1 else kept;
      var tail := Extraction.VerdictLog(ls[1..], ok, count, visited + 1, kept');
      var head := WorkerLog.ProcessingLines(visited + 1, count) + [verdict];
      var lines := Extraction.VerdictLog(ls, ok, count, visited, kept);
      assert lines == head + tail;
      assert head == [WorkerLog.Blank, WorkerLog.Processing(visited + 1, count), verdict];
      VerdictsFindNothing(ls[1..], ok, count, visited + 1, kept');
      assert !verdict.Found?;
    }
  }

  /** A line other than a listing line is quiet: it carries no `$`. */
  predicate Quiet(line: WorkerLog.Line) {
    line.Property? || '$' !in WorkerLog.Content(line)
  }

  lemma LineQuiet(line: WorkerLog.Line)
    requires line.Found? ==> '$' !in line.selector
    ensures Quiet(line)
  {
    match line
    case Found(n, selector) => FoundQuiet(n, selector);
    case Fallback => FallbackQuiet();
    case Containers(n) => ContainersQuiet(n);
    case Blank =>
    case Processing(i, n) => ProcessingQuiet(i, n);
    case Property(_, _) =>
    case Skipped(i) => SkippedQuiet(i);
  }

  lemma FoundQuiet(n: nat, selector: string)
    requires '$' !in selector
    ensures '$' !in WorkerLog.Content(WorkerLog.Found(n, selector))
  {
    DigitsHaveNo(NatToString(n), '$');
  }

  lemma FallbackQuiet()
    ensures '$' !in WorkerLog.Content(WorkerLog.Fallback)
  {
  }

  lemma ContainersQuiet(n: nat)
    ensures '$' !in WorkerLog.Content(WorkerLog.Containers(n))
  {
    DigitsHaveNo(NatToString(n), '$');
  }

  lemma ProcessingQuiet(i: nat, n: nat)
    ensures '$' !in WorkerLog.Content(WorkerLog.Processing(i, n))
  {
    DigitsHaveNo(NatToString(i), '$');
    DigitsHaveNo(NatToString(n), '$');
  }

  lemma SkippedQuiet(i: nat)
    ensures '$' !in WorkerLog.Content(WorkerLog.Skipped(i))
  {
    DigitsHaveNo(NatToString(i), '$');
  }

  lemma SelectorsHaveNoDollar()
    ensures forall k :: 0 <= k < |Extraction.CardSelectors| ==> '$' !in Extraction.CardSelectors[k]
  {
  }

  /** A line the reader takes back faithfully: a printable listing line, or a quiet one. */
  predicate Replayable(line: WorkerLog.Line) {
    if line.Property? then Printable(line.listing) else Quiet(line)
  }

  /** What the reader should take from one line: the listing of a listing line, read back. */
  function Reported(line: WorkerLog.Line): seq<Listing> {
    if line.Property? then [ReadBack(line.listing)] else []
  }

  /** What the reader should take from each line of a log. */
  function ReportedEach(lines: seq<WorkerLog.Line>): (each: seq<seq<Listing>>)
    ensures |each| == |lines|
    ensures forall i :: 0 <= i < |lines| ==> each[i] == Reported(lines[i])
  {
    seq(|lines|, i requires 0 <= i < |lines| => Reported(lines[i]))
  }

  /** The reader gathers, from any outputs, the concatenation of what each one gains. */
  lemma GatheredPointwise(outs: seq<string>, adds: seq<seq<Listing>>)
    requires |outs| == |adds|
    requires forall i :: 0 <= i < |outs| ==> Gain(outs[i]) == adds[i]
    ensures Gathered(outs) == Concat(adds)
  {
    FlatMapPointwise(outs, Gain, adds);
  }

  /** Reading back the listing lines one by one reads back the reported listings. */
  lemma {:induction false} ReportedAll(lines: seq<WorkerLog.Line>)
    ensures Concat(ReportedEach(lines)) == ReadBackAll(Recorded(lines))
    decreases |lines|
  {
    if |lines| > 0 {
      var each := ReportedEach(lines);
      var first := if lines[0].Property? then [lines[0].listing] else [];
      assert each[1..] == ReportedEach(lines[1..]);
      ReportedAll(lines[1..]);
      assert Recorded(lines) == first + Recorded(lines[1..]);
      ReadBackAllAppend(first, Recorded(lines[1..]));
    }
  }

  /**
   * A log whose lines are all replayable is read back as exactly the
   * reported listings, in order, each with the placeholder link.
   */
  lemma ReplayLines(lines: seq<WorkerLog.Line>)
    requires forall i :: 0 <= i < |lines| ==> Replayable(lines[i])
    ensures Gathered(WorkerLog.RenderAll(lines)) == ReadBackAll(Recorded(lines))
  {
    GatheredReported(lines);
    ReportedAll(lines);
  }

  lemma GatheredReported(lines: seq<WorkerLog.Line>)
    requires forall i :: 0 <= i < |lines| ==> Replayable(lines[i])
    ensures Gathered(WorkerLog.RenderAll(lines)) == Concat(ReportedEach(lines))
  {
    ReplayEach(lines);
    GatheredPointwise(WorkerLog.RenderAll(lines), ReportedEach(lines));
  }

  /** Line by line: each rendered line is read back as what that line reported. */
  lemma ReplayEach(lines: seq<WorkerLog.Line>)
    requires forall i :: 0 <= i < |lines| ==> Replayable(lines[i])
    ensures |WorkerLog.RenderAll(lines)| == |ReportedEach(lines)| == |lines|
    ensures forall i :: 0 <= i < |lines| ==> Gain(WorkerLog.RenderAll(lines)[i]) == ReportedEach(lines)[i]
  {
    var outs := WorkerLog.RenderAll(lines);
    var each := ReportedEach(lines);
    forall i | 0 <= i < |lines|
      ensures Gain(outs[i]) == each[i]
    {
      ReplayLine(lines[i]);
    }
  }

  /** One line of a log: a listing line adds its listing, any other line adds nothing. */
  lemma ReplayLine(line: WorkerLog.Line)
    requires Replayable(line)
    ensures Gain(WorkerLog.Render(line)) == Reported(line)
  {
    if line.Property? {
      ListingLineReplays(line.kept, line.listing);
    } else {
      QuietLine(line);
    }
  }

  lemma ReadBackAllAppend(a: seq<Listing>, b: seq<Listing>)
    ensures ReadBackAll(a + b) == ReadBackAll(a) + ReadBackAll(b)
  {
  }

  /**
   * End to end: the web app, reading what the scraper printed for a
   * results page, collects exactly the listings the scraper kept, in the
   * order it kept them, provided each of them prints cleanly.
   */
  lemma ScrapeReplays(r: Reader, page: Extraction.Page)
    requires page.WellFormed()
    requires var kept := Extraction.Kept(Extraction.Containers(page));
      forall j :: 0 <= j < |kept| ==> Printable(kept[j])
    ensures Run(r, WorkerLog.RenderAll(Extraction.ExtractionLog(page))).progress.properties
      == r.progress.properties + ReadBackAll(Extraction.Kept(Extraction.Containers(page)))
  {
    LogGathers(page);
    RunGathers(r, WorkerLog.RenderAll(Extraction.ExtractionLog(page)));
  }

  /** The listings the reader gathers from an extraction log are the kept ones, read back. */
  lemma LogGathers(page: Extraction.Page)
    requires page.WellFormed()
    requires var kept := Extraction.Kept(Extraction.Containers(page));
      forall j :: 0 <= j < |kept| ==> Printable(kept[j])
    ensures Gathered(WorkerLog.RenderAll(Extraction.ExtractionLog(page))) == ReadBackAll(Extraction.Kept(Extraction.Containers(page)))
  {
    var lines := Extraction.ExtractionLog(page);
    var kept := Extraction.Kept(Extraction.Containers(page));
    ExtractionLogRecords(page);
    ExtractionLogQuiet(page);
    forall i | 0 <= i < |lines|
      ensures Replayable(lines[i])
    {
      if lines[i].Property? {
        RecordedHas(lines, i);
        var j :| 0 <= j < |kept| && kept[j] == lines[i].listing;
      }
    }
    ReplayLines(lines);
  }

  /** Every listing line's listing is among the recorded ones. */
  lemma {:induction false} RecordedHas(lines: seq<WorkerLog.Line>, i: nat)
    requires i < |lines| && lines[i].Property?
    ensures lines[i].listing in Recorded(lines)
    decreases i
  {
    if i > 0 {
      assert lines[1..][i - 1] == lines[i];
      RecordedHas(lines[1..], i - 1);
    }
  }

  /** The listings an extraction log reports are the kept ones. */
  lemma ExtractionLogRecords(page: Extraction.Page)
    requires page.WellFormed()
    ensures Recorded(Extraction.ExtractionLog(page)) == Extraction.Kept(Extraction.Containers(page))
  {
    var cards := Extraction.Containers(page);
    var head := Extraction.SelectionLog(page) + [WorkerLog.Containers(|cards|)];
    var verdicts := Extraction.VerdictLog(Extraction.Extracted(cards), Extraction.Complete, |cards|, 0, 0);
    assert Extraction.ExtractionLog(page) == head + verdicts;
    RecordedAppend(head, verdicts);
    RecordedVerdicts(Extraction.Extracted(cards), Extraction.Complete, |cards|, 0, 0);
    assert |head| == 2 && !head[0].Property? && !head[1].Property?;
    assert head[1..][1..] == [];
  }

  /** Every line of an extraction log other than a listing line is quiet. */
  lemma ExtractionLogQuiet(page: Extraction.Page)
    requires page.WellFormed()
    ensures var lines := Extraction.ExtractionLog(page);
      forall i :: 0 <= i < |lines| ==> Quiet(lines[i])
  {
    var cards := Extraction.Containers(page);
    var head := Extraction.SelectionLog(page) + [WorkerLog.Containers(|cards|)];
    var verdicts := Extraction.VerdictLog(Extraction.Extracted(cards), Extraction.Complete, |cards|, 0, 0);
    var lines := Extraction.ExtractionLog(page);
    assert lines == head + verdicts;
    VerdictsFindNothing(Extraction.Extracted(cards), Extraction.Complete, |cards|, 0, 0);
    SelectionNoDollar(page);
    forall line | line in lines && line.Found?
      ensures '$' !in line.selector
    {
      assert line in head;
    }
    AllQuiet(lines);
  }

  /** The selector a selection line names is one of the fixed selectors, none of which has a `$`. */
  lemma SelectionNoDollar(page: Extraction.Page)
    requires page.WellFormed()
    ensures forall line :: line in Extraction.SelectionLog(page) + [WorkerLog.Containers(|Extraction.Containers(page)|)] && line.Found? ==> '$' !in line.selector
  {
    var head := Extraction.SelectionLog(page);
    SelectorsHaveNoDollar();
    assert head[0].Found? ==> head[0].selector in Extraction.CardSelectors;
  }

  lemma AllQuiet(lines: seq<WorkerLog.Line>)
    requires forall line :: line in lines && line.Found? ==> '$' !in line.selector
    ensures forall i :: 0 <= i < |lines| ==> Quiet(lines[i])
  {
    forall i | 0 <= i < |lines|
      ensures Quiet(lines[i])
    {
      LineQuiet(lines[i]);
    }
  }

  /**
   * A whole session that exits cleanly, whose output contains a results
   * page's extraction log among lines that carry no listing, ends with
   * exactly the listings the scraper kept, in order, and a message that
   * counts them.
   */
  lemma SessionReportsKept(p: Progress, command: string, page: Extraction.Page,
                           before: seq<string>, after: seq<string>, backup: Session.Backup)
    requires page.WellFormed()
    requires var kept := Extraction.Kept(Extraction.Containers(page));
      kept != [] && forall j :: 0 <= j < |kept| ==> Printable(kept[j])
    requires Gathered(before) == [] && Gathered(after) == []
    ensures var kept := Extraction.Kept(Extraction.Containers(page));
      var outputs := before + WorkerLog.RenderAll(Extraction.ExtractionLog(page)) + after;
      var q := Session.Worker(p, command, Session.Launched, outputs, Session.Exited(0), backup);
      q.status == Completed && q.properties == ReadBackAll(kept)
      && q.message == "Success! Found " + NatToString(|kept|) + " properties"
  {
    var kept := Extraction.Kept(Extraction.Containers(page));
    var log := WorkerLog.RenderAll(Extraction.ExtractionLog(page));
    var outputs := before + log + after;
    var start := Begin(Session.Launch(Session.Reset(p, command), Session.Launched));
    LogGathers(page);
    GatheredAround(before, log, after);
    RunGathers(start, outputs);
    Session.CleanExitReportsListings(p, command, outputs, backup);
  }

  /** Lines that gather nothing around a log do not change what it gathers. */
  lemma GatheredAround(before: seq<string>, log: seq<string>, after: seq<string>)
    requires Gathered(before) == [] && Gathered(after) == []
    ensures Gathered(before + log + after) == Gathered(log)
  {
    GatheredAppend(before + log, after);
    GatheredAppend(before, log);
  }
}

=== FILE: seqs.dfy ===
/**
 * Sequence helpers shared by the scraper and the web app: Python's slice
 * `s[:n]`, the first element passing a test (how every ordered list of
 * strategies, selectors and table rows is scanned), and order-preserving
 * filtering.
 */
module Seqs {
  import opened Wrappers

  /** `s[:n]` on a Python list or string. */
  function Take<T>(s: seq<T>, n: nat): (r: seq<T>)
    ensures |r| == if |s| <= n then |s| else n
    ensures r <= s
  {
    if |s| <= n then s else s[..n]
  }

  /** The position of the first element satisfying `p`: every strategy list is scanned this way. */
  function FirstIndex<T>(xs: seq<T>, p: T -> bool): (k: Option<nat>)
    ensures k.Some? ==> k.value < |xs| && p(xs[k.value])
    ensures k.Some? ==> forall j :: 0 <= j < k.value ==> !p(xs[j])
    ensures k.None? <==> forall j :: 0 <= j < |xs| ==> !p(xs[j])
    decreases |xs|
  {
    if |xs| == 0 then
      None
    else if p(xs[0]) then
      Some(0)
    else
      match FirstIndex(xs[1..], p)
      case None => None
      case Some(k) => Some(k + 1)
  }

  /** A position where `p` holds and holds nowhere before is the one found. */
  lemma {:induction false} FirstIndexAt<T>(xs: seq<T>, p: T -> bool, k: nat)
    requires k < |xs| && p(xs[k])
    requires forall j :: 0 <= j < k ==> !p(xs[j])
    ensures FirstIndex(xs, p) == Some(k)
    decreases k
  {
    if k > 0 {
      assert !p(xs[0]);
      assert forall j :: 0 <= j < k - 1 ==> xs[1..][j] == xs[j + 1];
      FirstIndexAt(xs[1..], p, k - 1);
    }
  }

  /** What comes after the first match is never consulted. */
  lemma FirstIndexIgnoresLater<T>(xs: seq<T>, ys: seq<T>, p: T -> bool)
    requires FirstIndex(xs, p).Some?
    ensures FirstIndex(xs + ys, p) == FirstIndex(xs, p)
  {
    var k := FirstIndex(xs, p).value;
    assert forall j :: 0 <= j <= k ==> (xs + ys)[j] == xs[j];
    FirstIndexAt(xs + ys, p, k);
  }

  /** The elements satisfying `p`, in their original order. */
  function Filter<T>(xs: seq<T>, p: T -> bool): (r: seq<T>)
    ensures |r| <= |xs|
    ensures forall i :: 0 <= i < |r| ==> p(r[i])
    ensures forall i :: 0 <= i < |r| ==> r[i] in xs
    ensures forall i :: 0 <= i < |xs| && p(xs[i]) ==> xs[i] in r
    decreases |xs|
  {
    if |xs| == 0 then []
    else
      assert forall i :: 1 <= i < |xs| ==> xs[i] == xs[1..][i - 1];
      (if p(xs[0]) then [xs[0]] else []) + Filter(xs[1..], p)
  }

  lemma {:induction false} FilterAppend<T>(a: seq<T>, b: seq<T>, p: T -> bool)
    ensures Filter(a + b, p) == Filter(a, p) + Filter(b, p)
    decreases |a|
  {
    if |a| == 0 {
      assert a + b == b;
    } else {
      assert (a + b)[1..] == a[1..] + b;
      FilterAppend(a[1..], b, p);
    }
  }

  /**
   * Walk `xs` in order keeping the elements that satisfy `p`, and stop as
   * soon as `want` are kept.
   */
  method FilterUpTo<T>(xs: seq<T>, p: T -> bool, want: nat) returns (picked: seq<T>)
    ensures picked == Take(Filter(xs, p), want)
  {
    picked := [];
    var i := 0;
    while i < |xs| && |picked| < want
      invariant 0 <= i <= |xs|
      invariant picked == Filter(xs[..i], p)
      invariant |picked| <= want
    {
      assert xs[..i + 1] == xs[..i] + [xs[i]];
      FilterAppend(xs[..i], [xs[i]], p);
      if p(xs[i]) {
        picked := picked + [xs[i]];
      }
      i := i + 1;
    }
    assert xs == xs[..i] + xs[i..];
    FilterAppend(xs[..i], xs[i..], p);
  }

  /** What a bounded filter of a prefix keeps comes from the whole sequence and satisfies the test. */
  lemma TakeFilterTake<T>(xs: seq<T>, n: nat, p: T -> bool, want: nat)
    ensures var r := Take(Filter(Take(xs, n), p), want);
      |r| <= want && forall i :: 0 <= i < |r| ==> p(r[i]) && r[i] in xs
  {
    var scan := Take(xs, n);
    var f := Filter(scan, p);
    var r := Take(f, want);
    forall i | 0 <= i < |r|
      ensures p(r[i]) && r[i] in xs
    {
      assert r[i] == f[i];
      assert f[i] in scan;
      var j :| 0 <= j < |scan| && scan[j] == f[i];
      assert xs[j] == scan[j];
    }
  }

  /** The sequences of `xss` one after the other. */
  function Concat<T>(xss: seq<seq<T>>): seq<T>
    decreases |xss|
  {
    if |xss| == 0 then [] else xss[0] + Concat(xss[1..])
  }

  /** The sequences `f` gives for the elements of `xs`, one after the other. */
  function FlatMap<T, U>(xs: seq<T>, f: T -> seq<U>): seq<U>
    decreases |xs|
  {
    if |xs| == 0 then [] else f(xs[0]) + FlatMap(xs[1..], f)
  }

  lemma {:induction false} FlatMapAppend<T, U>(a: seq<T>, b: seq<T>, f: T -> seq<U>)
    ensures FlatMap(a + b, f) == FlatMap(a, f) + FlatMap(b, f)
    decreases |a|
  {
    if |a| == 0 {
      assert a + b == b;
    } else {
      var ab := a + b;
      assert ab[0] == a[0];
      assert ab[1..] == a[1..] + b;
      FlatMapAppend(a[1..], b, f);
    }
  }

  /** Mapping is concatenating the images, element by element. */
  lemma {:induction false} FlatMapPointwise<T, U>(xs: seq<T>, f: T -> seq<U>, ys: seq<seq<U>>)
    requires |ys| == |xs|
    requires forall i :: 0 <= i < |xs| ==> f(xs[i]) == ys[i]
    ensures FlatMap(xs, f) == Concat(ys)
    decreases |xs|
  {
    if |xs| > 0 {
      FlatMapPointwise(xs[1..], f, ys[1..]);
    }
  }
}

=== FILE: session.dfy ===
/**
 * One scraping session in the web app: the guard on the start request,
 * the reset of the shared record, the launch of the scraper, the reading
 * loop, and the final verdict once the scraper has exited.
 *
 * What the operating system and the file system answer (whether the
 * process could be started, how it exited, what the newest CSV file holds)
 * are parameters.
 */
module Session {
  import opened Wrappers
  import opened Seqs
  import opened Text
  import opened Listings
  import opened ProgressState
  import Interpreter

  /** The link shown when the scraper's output carried none. */
  const DefaultSheetUrl := "https://docs.google.com/spreadsheets/d/1Qi9aB8jDuN6524b9seAXpvOjwzNHvc3xxJJm-aLRA9k/edit?usp=sharing"

  /** The message the non-zero-exit branch raises: the merged error stream is not a separate pipe. */
  const MissingStderrMessage := "Error: 'NoneType' object has no attribute 'read'"

  // ---------------------------------------------------------------------------
  // The start request

  datatype Response = AlreadyRunning | Started

  /** A start request is refused while a session is running, and starts one otherwise. */
  function StartRequest(p: Progress): (r: Response)
    ensures r == AlreadyRunning <==> p.status == Running
  {
    if p.status == Running then AlreadyRunning else Started
  }

  // ---------------------------------------------------------------------------
  // Reset and launch

  /**
   * The session's first assignments: running, counters at zero, no
   * listings, not completed. The link from an earlier session is kept.
   */
  function Reset(p: Progress, command: string): (q: Progress)
    ensures q.status == Running && !q.completed
    ensures q.current == 0 && q.total == 0 && q.properties == []
    ensures q.sheetUrl == p.sheetUrl
  {
    Progress(Running, 0, 0, "Starting main.py with command: " + command, [], p.sheetUrl, false)
  }

  /** Whether the scraper process could be started. */
  datatype LaunchResult = Launched | LaunchFailed(reason: string)

  function Launch(p: Progress, launch: LaunchResult): (q: Progress)
    ensures launch.Launched? ==> q == p.(message := "Successfully started main.py process...")
    ensures launch.LaunchFailed? ==> q.status == Error && q.completed && q.properties == p.properties
  {
    match launch
    case Launched => p.(message := "Successfully started main.py process...")
    case LaunchFailed(reason) => p.(status := Error, message := "Failed to start main.py: " + reason, completed := true)
  }

  // ---------------------------------------------------------------------------
  // The verdict

  /** How waiting for the process ended: its exit code, or the five-minute timeout. */
  datatype Outcome = Exited(code: int) | TimedOut

  /**
   * The CSV fallback when the output yielded no listings: no matching file,
   * the rows of the newest one, or a failure after appending some rows.
   */
  datatype Backup = NoCsv | CsvRows(rows: seq<Listing>) | ReadFailed(appended: seq<Listing>)

  /** An unset link is `None` or empty; it is then replaced by the default. */
  function WithDefaultLink(p: Progress): (q: Progress)
    ensures q.sheetUrl.Some? && q.sheetUrl.value != ""
    ensures p.sheetUrl.Some? && p.sheetUrl.value != "" ==> q == p
    ensures q == p.(sheetUrl := q.sheetUrl)
  {
    if p.sheetUrl.None? || p.sheetUrl.value == "" then p.(sheetUrl := Some(DefaultSheetUrl)) else p
  }

  /** The verdict after a zero exit code. */
  function Succeeded(p: Progress, backup: Backup): (q: Progress)
    ensures q.status == Completed && q.completed
    ensures p.properties != [] ==> q.properties == p.properties && q.message == "Success! Found " + NatToString(|p.properties|) + " properties"
    ensures p.properties <= q.properties
    ensures p.properties != [] || backup.CsvRows? ==> q.sheetUrl == WithDefaultLink(p).sheetUrl
    ensures p.properties == [] && !backup.CsvRows? ==> q.sheetUrl == p.sheetUrl
  {
    if p.properties != [] then
      WithDefaultLink(p.(status := Completed, message := "Success! Found " + NatToString(|p.properties|) + " properties", completed := true))
    else
      match backup
      case CsvRows(rows) =>
        var loaded := p.properties + rows;
        WithDefaultLink(p.(properties := loaded, status := Completed,
          message := "Success! Found " + NatToString(|loaded|) + " properties (loaded from CSV)", completed := true))
      case NoCsv => p.(status := Completed, message := "Completed but no properties found", completed := true)
      case ReadFailed(appended) =>
        p.(properties := p.properties + appended, status := Completed, message := "Completed - check CSV files for data", completed := true)
  }

  /**
   * The verdict once the output is exhausted, as the code behaves: a
   * non-zero exit code reaches a read of the error stream, which is merged
   * into the output and so does not exist, and the exception handler around
   * the whole session reports the failed attribute lookup.
   */
  function FinishAsWritten(p: Progress, outcome: Outcome, backup: Backup): (q: Progress)
    ensures q.completed && (q.status == Completed || q.status == Error)
    ensures q.status == Completed <==> outcome == Exited(0)
    ensures p.properties <= q.properties
    ensures outcome != Exited(0) ==> q.properties == p.properties && q.sheetUrl == p.sheetUrl
    ensures outcome == TimedOut ==> q.message == "Process timed out after 5 minutes"
    ensures outcome.Exited? && outcome.code != 0 ==> q.message == MissingStderrMessage
  {
    match outcome
    case TimedOut => p.(status := Error, message := "Process timed out after 5 minutes", completed := true)
    case Exited(code) =>
      if code == 0 then Succeeded(p, backup)
      else p.(status := Error, message := MissingStderrMessage, completed := true)
  }

  /**
   * The verdict once the output is exhausted: success with the listings
   * (or the CSV fallback) on a zero exit code, an error otherwise.
   */
  function Finish(p: Progress, outcome: Outcome, backup: Backup): (q: Progress)
    ensures q.completed && (q.status == Completed || q.status == Error)
    ensures q.status == Completed <==> outcome == Exited(0)
    ensures p.properties <= q.properties
    ensures outcome != Exited(0) ==> q.properties == p.properties && q.sheetUrl == p.sheetUrl
    ensures outcome == TimedOut ==> q.message == "Process timed out after 5 minutes"
    ensures outcome.Exited? && outcome.code != 0 ==> q.message == "Error occurred during scraping"
  {
    match outcome
    case TimedOut => p.(status := Error, message := "Process timed out after 5 minutes", completed := true)
    case Exited(code) =>
      if code == 0 then Succeeded(p, backup)
      else p.(status := Error, message := "Error occurred during scraping", completed := true)
  }

  /** The two verdicts differ only in the message of a failed exit. */
  lemma FinishDiffersOnFailure(p: Progress, outcome: Outcome, backup: Backup)
    ensures outcome.Exited? && outcome.code != 0 ==>
      FinishAsWritten(p, outcome, backup) == Finish(p, outcome, backup).(message := MissingStderrMessage)
      && FinishAsWritten(p, outcome, backup).message != Finish(p, outcome, backup).message
    ensures !(outcome.Exited? && outcome.code != 0) ==> FinishAsWritten(p, outcome, backup) == Finish(p, outcome, backup)
  {
    if outcome.Exited? && outcome.code != 0 {
      assert MissingStderrMessage[5] == ':' && "Error occurred during scraping"[5] == ' ';
    }
  }

  // ---------------------------------------------------------------------------
  // A whole session

  /**
   * The worker thread from the reset to the verdict, as the code is
   * written: the record it leaves behind. `outputs` are the successive
   * `readline()` results.
   */
  function Worker(p: Progress, command: string, launch: LaunchResult, outputs: seq<string>, outcome: Outcome, backup: Backup): (q: Progress)
    ensures q.completed && (q.status == Completed || q.status == Error)
    ensures q.status == Completed <==> launch.Launched? && outcome == Exited(0)
    ensures launch.LaunchFailed? ==> q.properties == [] && q.message == "Failed to start main.py: " + launch.reason
    ensures launch.Launched? && outcome.Exited? && outcome.code != 0 ==> q.message == MissingStderrMessage
    ensures launch.Launched? && outcome == TimedOut ==> q.message == "Process timed out after 5 minutes"
    ensures launch.Launched? && outcome != Exited(0) ==>
      q.properties == Interpreter.Run(Interpreter.Begin(Launch(Reset(p, command), launch)), outputs).progress.properties
  {
    var started := Launch(Reset(p, command), launch);
    if launch.LaunchFailed? then
      started
    else
      var read := Interpreter.Run(Interpreter.Begin(started), outputs);
      Interpreter.RunAppendOnly(Interpreter.Begin(started), outputs);
      FinishAsWritten(read.progress, outcome, backup)
  }

  /** The worker with the verdict the code evidently intends on a failed exit. */
  function IntendedWorker(p: Progress, command: string, launch: LaunchResult, outputs: seq<string>, outcome: Outcome, backup: Backup): (q: Progress)
    ensures q.completed && (q.status == Completed || q.status == Error)
    ensures q.status == Completed <==> launch.Launched? && outcome == Exited(0)
    ensures launch.Launched? && outcome.Exited? && outcome.code != 0 ==> q.message == "Error occurred during scraping"
  {
    var started := Launch(Reset(p, command), launch);
    if launch.LaunchFailed? then
      started
    else
      Finish(Interpreter.Run(Interpreter.Begin(started), outputs).progress, outcome, backup)
  }

  /** The worker as written and as intended differ only in the message of a failed exit. */
  lemma WorkerDiffersOnFailure(p: Progress, command: string, launch: LaunchResult, outputs: seq<string>, outcome: Outcome, backup: Backup)
    ensures var w, i := Worker(p, command, launch, outputs, outcome, backup), IntendedWorker(p, command, launch, outputs, outcome, backup);
      (launch.Launched? && outcome.Exited? && outcome.code != 0 ==> w == i.(message := MissingStderrMessage) && w.message != i.message)
      && (!(launch.Launched? && outcome.Exited? && outcome.code != 0) ==> w == i)
  {
    if launch.Launched? {
      var read := Interpreter.Run(Interpreter.Begin(Launch(Reset(p, command), launch)), outputs).progress;
      FinishDiffersOnFailure(read, outcome, backup);
    }
  }

  /**
   * While the worker reads the scraper's output the record stays running,
   * so every start request made then is refused; once the worker is done,
   * the next one is accepted.
   */
  lemma SingleFlight(p: Progress, command: string, outputs: seq<string>, outcome: Outcome, backup: Backup)
    ensures forall n :: 0 <= n <= |outputs| ==>
      StartRequest(Interpreter.Run(Interpreter.Begin(Launch(Reset(p, command), Launched)), outputs[..n]).progress) == AlreadyRunning
    ensures forall launch: LaunchResult :: StartRequest(Worker(p, command, launch, outputs, outcome, backup)) == Started
  {
    var started := Launch(Reset(p, command), Launched);
    forall n | 0 <= n <= |outputs|
      ensures Interpreter.Run(Interpreter.Begin(started), outputs[..n]).progress.status == Running
    {
      Interpreter.RunAppendOnly(Interpreter.Begin(started), outputs[..n]);
    }
  }

  /**
   * A session that exits cleanly shows a link: the one its output carried,
   * one left from an earlier session, or the default, unless no listing
   * was found at all and the CSV fallback did not load one.
   */
  lemma CleanExitShowsLink(p: Progress, command: string, outputs: seq<string>, backup: Backup)
    requires backup.CsvRows?
    ensures var q := Worker(p, command, Launched, outputs, Exited(0), backup);
      q.status == Completed && q.sheetUrl.Some? && q.sheetUrl.value != ""
  {
  }

  /** Listings found in the output are all reported, and the message counts them. */
  lemma CleanExitReportsListings(p: Progress, command: string, outputs: seq<string>, backup: Backup)
    ensures var read := Interpreter.Run(Interpreter.Begin(Launch(Reset(p, command), Launched)), outputs).progress;
      var q := Worker(p, command, Launched, outputs, Exited(0), backup);
      read.properties != [] ==>
        q.properties == read.properties && q.message == "Success! Found " + NatToString(|read.properties|) + " properties"
  {
  }
}

=== FILE: text.dfy ===
/**
 * The part of Python's `str` that the scraper and the web app rely on:
 * `strip()`, `lower()`, `in`, `startswith`, `split(sep)`, `split()`,
 * `replace`, `isdigit`, `int(...)` and `str(int)`, each written out over
 * `seq<char>`.
 */
module Text {
  import opened Wrappers

  /** The characters Python's `str.isspace` (and so `strip()` and `split()`) treats as whitespace. */
  predicate IsSpace(c: char) {
    || c == ' '
    || '\t' <= c <= '\r'
    || '\U{1C}' <= c <= '\U{1F}'
    || c == '\U{85}' || c == '\U{A0}' || c == '\U{1680}'
    || '\U{2000}' <= c <= '\U{200A}'
    || c == '\U{2028}' || c == '\U{2029}' || c == '\U{202F}' || c == '\U{205F}' || c == '\U{3000}'
  }

  predicate IsDigit(c: char) {
    '0' <= c <= '9'
  }

  predicate AllSpace(s: string) {
    forall i :: 0 <= i < |s| ==> IsSpace(s[i])
  }

  // ---------------------------------------------------------------------------
  // Substrings

  /** `s.startswith(p)` */
  predicate StartsWith(s: string, p: string) {
    |p| <= |s| && s[..|p|] == p
  }

  /** `t in s` */
  predicate Contains(s: string, t: string) {
    exists i :: 0 <= i <= |s| && StartsWith(s[i..], t)
  }

  lemma ContainsAt(s: string, t: string, i: nat)
    requires i + |t| <= |s| && s[i..i + |t|] == t
    ensures Contains(s, t)
  {
    assert StartsWith(s[i..], t);
  }

  /** What occurs in `a` still occurs once something is appended. */
  lemma ContainsExtended(a: string, b: string, t: string)
    requires Contains(a, t)
    ensures Contains(a + b, t)
  {
    var i :| 0 <= i <= |a| && StartsWith(a[i..], t);
    assert (a + b)[i..i + |t|] == a[i..][..|t|];
    ContainsAt(a + b, t, i);
  }

  /** Inside an occurrence of `t` at `i`, `s` agrees with `t`. */
  lemma WindowAt(s: string, t: string, i: nat, k: nat)
    requires i <= |s| && StartsWith(s[i..], t)
    requires i <= k < i + |t|
    ensures t[k - i] == s[k]
  {
    assert s[i..][..|t|][k - i] == s[k];
  }

  /** Every character of a contained string occurs in the containing one. */
  lemma ContainedChars(s: string, t: string)
    requires Contains(s, t)
    ensures forall c :: c in t ==> c in s
  {
    var i :| 0 <= i <= |s| && StartsWith(s[i..], t);
    forall c | c in t
      ensures c in s
    {
      var k :| 0 <= k < |t| && t[k] == c;
      assert s[i + k] == c;
    }
  }

  /** A string with a character that `s` lacks is not in `s`. */
  lemma MissingChar(s: string, t: string, c: char)
    requires c in t && c !in s
    ensures !Contains(s, t)
  {
    if Contains(s, t) {
      ContainedChars(s, t);
    }
  }

  lemma ContainsChar(s: string, c: char)
    ensures Contains(s, [c]) <==> c in s
  {
    if c in s {
      var i :| 0 <= i < |s| && s[i] == c;
      ContainsAt(s, [c], i);
    } else {
      MissingChar(s, [c], c);
    }
  }

  lemma ContainsLeft(a: string, b: string, t: string)
    requires Contains(a, t)
    ensures Contains(a + b, t)
  {
    var i :| 0 <= i <= |a| && StartsWith(a[i..], t);
    ContainsAt(a + b, t, i);
  }

  lemma ContainsRight(a: string, b: string, t: string)
    requires Contains(b, t)
    ensures Contains(a + b, t)
  {
    var i :| 0 <= i <= |b| && StartsWith(b[i..], t);
    assert (a + b)[|a| + i..|a| + i + |t|] == b[i..i + |t|];
    ContainsAt(a + b, t, |a| + i);
  }

  /** Containment is transitive. */
  lemma ContainsWithin(s: string, t: string, u: string)
    requires Contains(s, t) && Contains(t, u)
    ensures Contains(s, u)
  {
    var i :| 0 <= i <= |s| && StartsWith(s[i..], t);
    var j :| 0 <= j <= |t| && StartsWith(t[j..], u);
    assert s[i..][..|t|] == s[i..i + |t|];
    assert s[i..i + |t|] == t;
    assert t[j..][..|u|] == t[j..j + |u|] == u;
    forall k | 0 <= k < |u|
      ensures s[i + j..i + j + |u|][k] == u[k]
    {
      assert s[i + j + k] == s[i..i + |t|][j + k];
    }
    assert s[i + j..i + j + |u|] == u;
    ContainsAt(s, u, i + j);
  }

  /** A string of the same length occurs in `s` only if it is `s`. */
  lemma NotContainsOther(s: string, t: string)
    requires |s| == |t| && s != t
    ensures !Contains(s, t)
  {
  }

  /** Nothing longer than `s` occurs in it. */
  lemma NotContainsLonger(s: string, t: string)
    requires |s| < |t|
    ensures !Contains(s, t)
  {
  }

  /** Inside an occurrence of `t` at `i`, `s` agrees with `t` throughout. */
  lemma WindowAll(s: string, t: string, i: nat)
    requires i <= |s| && StartsWith(s[i..], t)
    ensures i + |t| <= |s|
    ensures forall k :: i <= k < i + |t| ==> s[k] == t[k - i]
  {
    forall k | i <= k < i + |t|
      ensures s[k] == t[k - i]
    {
      WindowAt(s, t, i, k);
    }
  }

  /** An occurrence that ends within a prefix of `s` is an occurrence in that prefix. */
  lemma ContainsInLeft(s: string, a: string, t: string, i: nat)
    requires |a| <= |s| && s[..|a|] == a
    requires i + |t| <= |a| && StartsWith(s[i..], t)
    ensures Contains(a, t)
  {
    assert a[i..i + |t|] == s[i..i + |t|];
    ContainsAt(a, t, i);
  }

  /** An occurrence that starts past `a` in `a + b` is an occurrence in `b`. */
  lemma ContainsInRight(a: string, b: string, t: string, i: nat)
    requires |a| <= i <= |a + b| && StartsWith((a + b)[i..], t)
    ensures Contains(b, t)
  {
    assert (a + b)[i..] == b[i - |a|..];
    assert StartsWith(b[i - |a|..], t);
  }

  /** A character missing from `a` is found in `a + b` only past `a`. */
  lemma FoundPast(a: string, b: string, c: char, i: nat)
    requires c !in a && i < |a + b|
    ensures (a + b)[i] == c ==> i >= |a|
  {
    if i < |a| {
      assert (a + b)[i] == a[i];
    }
  }

  /** An occurrence in `a + b` of a string whose first character is not in `a` lies in `b`. */
  lemma ContainsAfterPrefix(a: string, b: string, t: string)
    requires |t| > 0 && t[0] !in a
    requires Contains(a + b, t)
    ensures Contains(b, t)
  {
    var s := a + b;
    var i: nat :| i <= |s| && StartsWith(s[i..], t);
    WindowAt(s, t, i, i);
    FoundPast(a, b, t[0], i);
    ContainsInRight(a, b, t, i);
  }

  /**
   * A string without digits that occurs in `l + d + r`, where `d` is a
   * non-empty run of digits, occurs in `l` or in `r`: a printed number
   * cannot complete a digit-free trigger phrase.
   */
  lemma ContainsAroundDigits(l: string, d: string, r: string, t: string)
    requires |d| > 0 && forall k :: 0 <= k < |d| ==> IsDigit(d[k])
    requires |t| > 0 && forall k :: 0 <= k < |t| ==> !IsDigit(t[k])
    requires Contains(l + d + r, t)
    ensures Contains(l, t) || Contains(r, t)
  {
    var s := l + d + r;
    var i: nat :| i <= |s| && StartsWith(s[i..], t);
    WindowAll(s, t, i);
    // the window cannot meet the digits
    var k := if i >= |l| then i else |l|;
    assert k < |l| + |d| ==> IsDigit(s[k]);
    assert i + |t| <= |l| || i >= |l| + |d|;
    if i + |t| <= |l| {
      assert s[..|l|] == l;
      ContainsInLeft(s, l, t, i);
    } else {
      assert s == (l + d) + r;
      ContainsInRight(l + d, r, t, i);
    }
  }

  /**
   * A string free of `'|'` that neither starts nor ends with a blank and
   * occurs in `a + " | " + b` occurs in `a` or in `b`.
   */
  lemma ContainsAroundBar(a: string, b: string, t: string)
    requires |t| > 0 && '|' !in t && t[0] != ' ' && t[|t| - 1] != ' '
    requires Contains(a + " | " + b, t)
    ensures Contains(a, t) || Contains(b, t)
  {
    var s := a + " | " + b;
    var i: nat :| i <= |s| && StartsWith(s[i..], t);
    WindowAll(s, t, i);
    assert s[|a|] == ' ' && s[|a| + 1] == '|' && s[|a| + 2] == ' ';
    // the window cannot meet the separator
    assert i + |t| <= |a| || i >= |a| + 3;
    if i + |t| <= |a| {
      assert s[..|a|] == a;
      ContainsInLeft(s, a, t, i);
    } else {
      ContainsInRight(a + " | ", b, t, i);
    }
  }

  /** No occurrence across a spaced bar: the contrapositive of `ContainsAroundBar`. */
  lemma NotContainsAroundBar(a: string, b: string, t: string)
    requires |t| > 0 && '|' !in t && t[0] != ' ' && t[|t| - 1] != ' '
    requires !Contains(a, t) && !Contains(b, t)
    ensures !Contains(a + " | " + b, t)
  {
    if Contains(a + " | " + b, t) {
      ContainsAroundBar(a, b, t);
      assert false;
    }
  }

  /** The first index at which `t` occurs in `s`, like `s.find(t)`. */
  function Find(s: string, t: string): (r: Option<nat>)
    ensures r.Some? ==> r.value + |t| <= |s| && s[r.value..r.value + |t|] == t
    ensures r.Some? ==> forall j :: 0 <= j < r.value ==> !StartsWith(s[j..], t)
    ensures r.None? <==> !Contains(s, t)
    decreases |s|
  {
    if StartsWith(s, t) then
      ContainsAt(s, t, 0);
      Some(0)
    else if |s| == 0 then
      None
    else
      var r := Find(s[1..], t);
      ContainsShift(s, t);
      if r.None? then
        None
      else
        ShiftedFirst(s, t, r.value);
        Some(r.value + 1)
  }

  /** Past a position where `t` does not start, searching `s` is searching its tail. */
  lemma ContainsShift(s: string, t: string)
    requires |s| > 0 && !StartsWith(s, t)
    ensures Contains(s, t) <==> Contains(s[1..], t)
  {
    if Contains(s, t) {
      var i :| 0 <= i <= |s| && StartsWith(s[i..], t);
      assert s[0..] == s;
      assert i > 0;
      assert s[1..][i - 1..] == s[i..];
    }
    if Contains(s[1..], t) {
      var i :| 0 <= i <= |s[1..]| && StartsWith(s[1..][i..], t);
      assert s[1..][i..] == s[i + 1..];
    }
  }

  /** The first occurrence in the tail of `s`, one position on, is the first in `s`. */
  lemma ShiftedFirst(s: string, t: string, i: nat)
    requires |s| > 0 && !StartsWith(s, t)
    requires i + |t| <= |s[1..]| && s[1..][i..i + |t|] == t
    requires forall j :: 0 <= j < i ==> !StartsWith(s[1..][j..], t)
    ensures i + 1 + |t| <= |s| && s[i + 1..i + 1 + |t|] == t
    ensures forall j :: 0 <= j < i + 1 ==> !StartsWith(s[j..], t)
  {
    assert s[i + 1..i + 1 + |t|] == s[1..][i..i + |t|];
    forall j | 0 <= j < i + 1
      ensures !StartsWith(s[j..], t)
    {
      if j == 0 {
        assert s[j..] == s;
      } else {
        assert s[j..] == s[1..][j - 1..];
      }
    }
  }

  /** Find locates the occurrence at `i` when none starts earlier. */
  lemma FindFirst(s: string, t: string, i: nat)
    requires i + |t| <= |s| && s[i..i + |t|] == t
    requires forall j :: 0 <= j < i ==> !StartsWith(s[j..], t)
    ensures Find(s, t) == Some(i)
  {
    ContainsAt(s, t, i);
    var k := Find(s, t).value;
    assert StartsWith(s[k..], t);
    assert StartsWith(s[i..], t);
  }

  // ---------------------------------------------------------------------------
  // strip() and lower()

  /** Python's `s.strip()`: `s` without its leading and trailing whitespace. */
  function Strip(s: string): (r: string)
    ensures |r| <= |s|
    ensures r == [] || (!IsSpace(r[0]) && !IsSpace(r[|r| - 1]))
  {
    var a := LeadingSpaces(s);
    if a == |s| then [] else s[a..|s| - TrailingSpaces(s)]
  }

  /** Where the stripped text sits in `s`: only whitespace is removed, from both ends. */
  lemma StripAt(s: string) returns (a: nat)
    ensures StrippedAt(s, a, Strip(s))
  {
    a := LeadingSpaces(s);
    if a == |s| {
      assert Strip(s) == [];
    } else {
      var b := |s| - TrailingSpaces(s);
      assert Strip(s) == s[a..b];
    }
  }

  /** `r` sits at `a` in `s`, and everything around it is whitespace. */
  ghost predicate StrippedAt(s: string, a: int, r: string) {
    && 0 <= a && a + |r| <= |s|
    && s[a..a + |r|] == r
    && AllSpace(s[..a])
    && AllSpace(s[a + |r|..])
  }

  /** The number of whitespace characters `s` starts with. */
  function LeadingSpaces(s: string): (k: nat)
    ensures k <= |s|
    ensures forall i :: 0 <= i < k ==> IsSpace(s[i])
    ensures k < |s| ==> !IsSpace(s[k])
    decreases |s|
  {
    if |s| == 0 || !IsSpace(s[0]) then 0 else 1 + LeadingSpaces(s[1..])
  }

  /** The number of whitespace characters `s` ends with. */
  function TrailingSpaces(s: string): (k: nat)
    ensures k <= |s|
    ensures forall i :: |s| - k <= i < |s| ==> IsSpace(s[i])
    ensures k < |s| ==> !IsSpace(s[|s| - k - 1])
    decreases |s|
  {
    if |s| == 0 || !IsSpace(s[|s| - 1]) then 0 else 1 + TrailingSpaces(s[..|s| - 1])
  }

  /**
   * Any way of cutting `s` into whitespace, a core with non-blank ends, and
   * whitespace yields the same core, which is what `strip()` returns.
   */
  lemma StripUnique(s: string, a: nat, r: string)
    requires StrippedAt(s, a, r)
    requires r == [] || (!IsSpace(r[0]) && !IsSpace(r[|r| - 1]))
    ensures Strip(s) == r
  {
    var e := a + |r|;
    assert forall i :: 0 <= i < a ==> IsSpace(s[i]) by {
      forall i | 0 <= i < a ensures IsSpace(s[i]) { assert s[..a][i] == s[i]; }
    }
    assert forall i :: e <= i < |s| ==> IsSpace(s[i]) by {
      forall i | e <= i < |s| ensures IsSpace(s[i]) { assert s[e..][i - e] == s[i]; }
    }
    var lead := LeadingSpaces(s);
    var trail := TrailingSpaces(s);
    if r == [] {
      assert lead == |s|;
    } else {
      assert s[a] == r[0];
      assert s[e - 1] == r[|r| - 1];
      assert lead == a;
      assert |s| - trail == e;
    }
  }

  /** A string with no whitespace at either end is its own `strip()`. */
  lemma StripNoop(s: string)
    requires s == [] || (!IsSpace(s[0]) && !IsSpace(s[|s| - 1]))
    ensures Strip(s) == s
  {
    assert StrippedAt(s, 0, s);
    StripUnique(s, 0, s);
  }

  /** A single leading space is stripped from a text whose ends are not blank. */
  lemma StripLeadingSpace(s: string)
    requires |s| > 0 && !IsSpace(s[0]) && !IsSpace(s[|s| - 1])
    ensures Strip(" " + s) == s
  {
    assert " " + s == " " + s + "";
    StripPadded(" ", s, "");
    StripNoop(s);
  }

  /** `strip()` ignores whitespace added around its argument. */
  lemma StripPadded(w1: string, s: string, w2: string)
    requires AllSpace(w1) && AllSpace(w2)
    ensures Strip(w1 + s + w2) == Strip(s)
  {
    var r := Strip(s);
    var a := StripAt(s);
    PaddedAt(w1, s, w2, a, r);
    StripUnique(w1 + s + w2, |w1| + a, r);
  }

  /** Whitespace added on both sides shifts where the stripped text sits. */
  lemma PaddedAt(w1: string, s: string, w2: string, a: int, r: string)
    requires AllSpace(w1) && AllSpace(w2) && StrippedAt(s, a, r)
    ensures StrippedAt(w1 + s + w2, |w1| + a, r)
  {
    var t := w1 + s + w2;
    var a' := |w1| + a;
    var e' := a' + |r|;
    assert t[a'..e'] == s[a..a + |r|];
    assert t[..a'] == w1 + s[..a];
    AllSpaceConcat(w1, s[..a]);
    assert t[e'..] == s[a + |r|..] + w2;
    AllSpaceConcat(s[a + |r|..], w2);
  }

  lemma AllSpaceConcat(x: string, y: string)
    requires AllSpace(x) && AllSpace(y)
    ensures AllSpace(x + y)
  {
    assert forall i :: 0 <= i < |x + y| ==> (x + y)[i] == if i < |x| then x[i] else y[i - |x|];
  }

  lemma StripIdempotent(s: string)
    ensures Strip(Strip(s)) == Strip(s)
  {
    StripNoop(Strip(s));
  }

  /** `strip()` only removes characters. */
  lemma StripFrom(s: string, c: char)
    requires c in Strip(s)
    ensures c in s
  {
    var r := Strip(s);
    var a := StripAt(s);
    var i :| 0 <= i < |r| && r[i] == c;
    assert s[a + i] == r[i];
  }

  lemma StripChars(s: string)
    ensures forall c :: c in Strip(s) ==> c in s
  {
    forall c | c in Strip(s)
      ensures c in s
    {
      StripFrom(s, c);
    }
  }

  /** A character other than whitespace survives `strip()`. */
  lemma StripKeeps(s: string, c: char)
    requires c in s && !IsSpace(c)
    ensures c in Strip(s)
  {
    var r := Strip(s);
    var a := StripAt(s);
    var i :| 0 <= i < |s| && s[i] == c;
    var e := a + |r|;
    assert a <= i < e;
    assert r[i - a] == c;
  }

  /** ASCII `str.lower()` on one character. */
  function LowerChar(c: char): char {
    if 'A' <= c <= 'Z' then (c as int + 32) as char else c
  }

  /** `s.lower()`, for the ASCII letters. */
  function Lower(s: string): (r: string)
    ensures |r| == |s|
    ensures forall i :: 0 <= i < |s| ==> r[i] == LowerChar(s[i])
  {
    seq(|s|, i requires 0 <= i < |s| => LowerChar(s[i]))
  }

  // ---------------------------------------------------------------------------
  // split, replace

  /** `sep.join(parts)` */
  function Join(parts: seq<string>, sep: string): string
    decreases |parts|
  {
    if |parts| == 0 then "" else if |parts| == 1 then parts[0] else parts[0] + sep + Join(parts[1..], sep)
  }

  /** `s.split(sep)` for a non-empty separator: the pieces between the occurrences of `sep`, left to right. */
  function Split(s: string, sep: string): (parts: seq<string>)
    requires |sep| > 0
    ensures |parts| >= 1
    decreases |s|
  {
    match Find(s, sep)
    case None => [s]
    case Some(i) => [s[..i]] + Split(s[i + |sep|..], sep)
  }

  /** Joining the pieces with the separator gives back the string: `sep.join(s.split(sep)) == s`. */
  lemma {:induction false} SplitJoin(s: string, sep: string)
    requires |sep| > 0
    ensures Join(Split(s, sep), sep) == s
    decreases |s|
  {
    match Find(s, sep)
    case None =>
    case Some(i) =>
      var rest := s[i + |sep|..];
      SplitJoin(rest, sep);
      JoinCons(s[..i], Split(rest, sep), sep);
      Around(s, i, |sep|);
  }

  lemma JoinCons(head: string, rest: seq<string>, sep: string)
    requires |rest| > 0
    ensures Join([head] + rest, sep) == head + sep + Join(rest, sep)
  {
    assert ([head] + rest)[1..] == rest;
  }

  /** A string is its prefix, a window and its suffix. */
  lemma Around(s: string, i: nat, n: nat)
    requires i + n <= |s|
    ensures s == s[..i] + s[i..i + n] + s[i + n..]
  {
  }

  /** No piece contains the separator. */
  lemma {:induction false} SplitPieces(s: string, sep: string)
    requires |sep| > 0
    ensures forall k :: 0 <= k < |Split(s, sep)| ==> !Contains(Split(s, sep)[k], sep)
    decreases |s|
  {
    match Find(s, sep)
    case None =>
      assert Split(s, sep) == [s] == [s] + [];
      FreeCons(s, [], sep);
    case Some(i) =>
      var rest := s[i + |sep|..];
      SplitHead(s, sep, i);
      SplitPieces(rest, sep);
      FreeCons(s[..i], Split(rest, sep), sep);
  }

  /** The first piece is what precedes the first separator, and holds none. */
  lemma SplitHead(s: string, sep: string, i: nat)
    requires |sep| > 0 && Find(s, sep) == Some(i)
    ensures i + |sep| <= |s| && !Contains(s[..i], sep)
    ensures Split(s, sep) == [s[..i]] + Split(s[i + |sep|..], sep)
  {
    PrefixBeforeFirst(s, sep, i);
    var rest := s[i + |sep|..];
    assert Split(s, sep) == [s[..i]] + Split(rest, sep);
  }

  lemma FreeCons(head: string, rest: seq<string>, sep: string)
    requires !Contains(head, sep)
    requires forall k :: 0 <= k < |rest| ==> !Contains(rest[k], sep)
    ensures forall k :: 0 <= k < |[head] + rest| ==> !Contains(([head] + rest)[k], sep)
  {
    forall k | 0 <= k < |[head] + rest|
      ensures !Contains(([head] + rest)[k], sep)
    {
      if k > 0 {
        assert ([head] + rest)[k] == rest[k - 1];
      }
    }
  }

  /** Nothing before the first occurrence of `t` contains `t`. */
  lemma PrefixBeforeFirst(s: string, t: string, i: nat)
    requires |t| > 0 && i <= |s|
    requires forall j :: 0 <= j < i ==> !StartsWith(s[j..], t)
    ensures !Contains(s[..i], t)
  {
    forall j | 0 <= j <= i
      ensures !StartsWith(s[..i][j..], t)
    {
      if j + |t| <= i {
        assert s[..i][j..][..|t|] == s[j..][..|t|];
      }
    }
  }

  /** Splitting a string with no separator in it gives back the string. */
  lemma SplitNone(s: string, sep: string)
    requires |sep| > 0 && !Contains(s, sep)
    ensures Split(s, sep) == [s]
  {
  }

  /** A piece free of `'|'` in front of `" | "` is the first piece of `split(" | ")`. */
  lemma SplitBar(a: string, b: string)
    requires '|' !in a
    ensures Split(a + " | " + b, " | ") == [a] + Split(b, " | ")
  {
    var s := a + " | " + b;
    assert s[|a|..|a| + 3] == " | ";
    forall j | 0 <= j < |a|
      ensures !StartsWith(s[j..], " | ")
    {
      if j + 1 < |a| {
        assert s[j + 1] == a[j + 1];
      } else {
        assert s[j + 1] == ' ';
      }
      if StartsWith(s[j..], " | ") {
        WindowAt(s, " | ", j, j + 1);
        assert false;
      }
    }
    FindFirst(s, " | ", |a|);
    assert s[..|a|] == a;
    assert s[|a| + 3..] == b;
  }

  /** A string free of `'|'` is one piece. */
  lemma SplitBarNone(a: string)
    requires '|' !in a
    ensures Split(a, " | ") == [a]
  {
    MissingChar(a, " | ", '|');
  }

  /** Splitting at the only occurrence of a character gives the two sides. */
  lemma SplitOnce(a: string, c: char, b: string)
    requires c !in a && c !in b
    ensures Split(a + [c] + b, [c]) == [a, b]
  {
    var s := a + [c] + b;
    assert s[|a|..|a| + 1] == [c];
    forall j | 0 <= j < |a|
      ensures !StartsWith(s[j..], [c])
    {
      assert s[j..][0] == a[j];
    }
    FindFirst(s, [c], |a|);
    assert s[..|a|] == a;
    assert s[|a| + 1..] == b;
    MissingChar(b, [c], c);
    SplitNone(b, [c]);
  }

  /** Python's `s.replace(pat, rep)` for a non-empty pattern: every non-overlapping occurrence, left to right. */
  function ReplaceAll(s: string, pat: string, rep: string): (r: string)
    requires |pat| > 0
    ensures !Contains(s, pat) ==> r == s
    ensures forall c :: c in r ==> c in s || c in rep
    decreases |s|
  {
    match Find(s, pat)
    case None => s
    case Some(i) =>
      var rest := ReplaceAll(s[i + |pat|..], pat, rep);
      assert forall c :: c in s[..i] ==> c in s;
      assert forall c :: c in s[i + |pat|..] ==> c in s;
      s[..i] + rep + rest
  }

  /** A leading occurrence of the pattern is the first one removed. */
  lemma ReplaceAllLeading(pat: string, rest: string)
    requires |pat| > 0
    ensures ReplaceAll(pat + rest, pat, "") == ReplaceAll(rest, pat, "")
  {
    var s := pat + rest;
    assert s[..|pat|] == pat;
    assert s[|pat|..] == rest;
  }

  /** Removing a pattern that `s` cannot start leaves `s` when the pattern only trails it. */
  lemma ReplaceAllTrailing(s: string, pat: string)
    requires |pat| > 0 && pat[0] !in s
    ensures ReplaceAll(s + pat, pat, "") == s
  {
    var t := s + pat;
    assert t[|s|..|s| + |pat|] == pat;
    ContainsAt(t, pat, |s|);
    var v := Find(t, pat).value;
    assert t[v..v + |pat|][0] == t[v];
    assert forall j :: 0 <= j < |s| ==> t[j] in s;
    assert v >= |s|;
    assert StartsWith(t[|s|..], pat);
    assert v == |s|;
    NotContainsLonger([], pat);
    assert t[..v] == s;
  }

  // ---------------------------------------------------------------------------
  // split() on whitespace

  /** `s.split()`: the maximal runs of non-whitespace, in order. */
  function Words(s: string): (ws: seq<string>)
    ensures forall k :: 0 <= k < |ws| ==> IsWord(ws[k])
  {
    WordsFrom(s, [])
  }

  /** A token `split()` can produce: non-empty, no whitespace. */
  predicate IsWord(w: string) {
    |w| > 0 && forall i :: 0 <= i < |w| ==> !IsSpace(w[i])
  }

  /** `split()` of `s`, when the word `cur` has already been read up to `s`. */
  function WordsFrom(s: string, cur: string): (ws: seq<string>)
    requires forall i :: 0 <= i < |cur| ==> !IsSpace(cur[i])
    ensures forall k :: 0 <= k < |ws| ==> IsWord(ws[k])
    decreases |s|
  {
    if |s| == 0 then
      Flush(cur)
    else if IsSpace(s[0]) then
      Flush(cur) + WordsFrom(s[1..], [])
    else
      WordsFrom(s[1..], cur + [s[0]])
  }

  /** The word `cur` as a list of zero or one tokens. */
  function Flush(cur: string): seq<string> {
    if cur == [] then [] else [cur]
  }

  /** A whitespace character separates the words before it from those after it. */
  lemma {:induction false} WordsFromSpace(a: string, c: char, b: string, cur: string)
    requires IsSpace(c)
    requires forall i :: 0 <= i < |cur| ==> !IsSpace(cur[i])
    ensures WordsFrom(a + [c] + b, cur) == WordsFrom(a, cur) + WordsFrom(b, [])
    decreases |a|
  {
    var s := a + [c] + b;
    if |a| == 0 {
      assert s[1..] == b;
    } else if IsSpace(a[0]) {
      assert s[1..] == a[1..] + [c] + b;
      WordsFromSpace(a[1..], c, b, []);
    } else {
      assert s[1..] == a[1..] + [c] + b;
      WordsFromSpace(a[1..], c, b, cur + [a[0]]);
    }
  }

  lemma WordsSpace(a: string, c: char, b: string)
    requires IsSpace(c)
    ensures Words(a + [c] + b) == Words(a) + Words(b)
  {
    WordsFromSpace(a, c, b, []);
  }

  /** Reading a run of non-whitespace extends the current word. */
  lemma {:induction false} WordsFromRun(w: string, cur: string)
    requires forall i :: 0 <= i < |cur| ==> !IsSpace(cur[i])
    requires forall i :: 0 <= i < |w| ==> !IsSpace(w[i])
    ensures WordsFrom(w, cur) == Flush(cur + w)
    decreases |w|
  {
    if |w| == 0 {
      assert cur + w == cur;
    } else {
      assert !IsSpace(w[0]);
      assert cur + [w[0]] + w[1..] == cur + w;
      WordsFromRun(w[1..], cur + [w[0]]);
    }
  }

  /** A single word splits into itself. */
  lemma WordsOfWord(w: string)
    requires IsWord(w)
    ensures Words(w) == [w]
  {
    assert [] + w == w;
    WordsFromRun(w, []);
  }

  // ---------------------------------------------------------------------------
  // Integers

  /** Python's `str.isdigit()` over ASCII digits. */
  predicate IsDigits(s: string) {
    |s| > 0 && forall i :: 0 <= i < |s| ==> IsDigit(s[i])
  }

  /** The value of a run of decimal digits. */
  function DigitsValue(s: string): nat
    requires forall i :: 0 <= i < |s| ==> IsDigit(s[i])
    decreases |s|
  {
    if |s| == 0 then 0 else DigitsValue(s[..|s| - 1]) * 10 + DigitValue(s[|s| - 1])
  }

  function DigitValue(c: char): nat
    requires IsDigit(c)
  {
    c as int - '0' as int
  }

  function DigitChar(d: nat): (c: char)
    requires d < 10
    ensures IsDigit(c)
  {
    ('0' as int + d) as char
  }

  /** `str(n)` for a natural number: decimal digits whose value is `n`, with no leading zero. */
  function NatToString(n: nat): (s: string)
    ensures IsDigits(s)
    ensures DigitsValue(s) == n
    ensures s[0] == '0' ==> s == "0"
    decreases n
  {
    if n < 10 then
      [DigitChar(n)]
    else
      var p := NatToString(n / 10);
      var s := p + [DigitChar(n % 10)];
      assert s[..|s| - 1] == p;
      s
  }

  /** `str(n)` for an integer. */
  function IntToString(n: int): string {
    if n < 0 then "-" + NatToString(-n) else NatToString(n)
  }

  /** What Python's `int(...)` accepts after the sign: digits, with single underscores between them. */
  predicate IsDigitGroups(u: string) {
    && |u| > 0
    && IsDigit(u[0])
    && IsDigit(u[|u| - 1])
    && (forall i :: 0 <= i < |u| ==> IsDigit(u[i]) || u[i] == '_')
    && (forall i :: 0 <= i < |u| - 1 ==> u[i] == '_' ==> u[i + 1] != '_')
  }

  function DropUnderscores(u: string): (r: string)
    ensures forall i :: 0 <= i < |r| ==> r[i] != '_' && r[i] in u
    ensures (forall i :: 0 <= i < |u| ==> u[i] != '_') ==> r == u
    decreases |u|
  {
    if |u| == 0 then u
    else if u[0] == '_' then DropUnderscores(u[1..])
    else [u[0]] + DropUnderscores(u[1..])
  }

  /** Python's `int(s)` for base 10, `None` where it raises `ValueError`. */
  function ParseInt(s: string): Option<int> {
    var t := Strip(s);
    if |t| > 0 && (t[0] == '+' || t[0] == '-') then
      match ParseUnsigned(t[1..])
      case None => None
      case Some(v) =>
        var n: int := if t[0] == '-' then -(v as int) else v;
        Some(n)
    else
      match ParseUnsigned(t)
      case None => None
      case Some(v) => Some(v)
  }

  /** `int(...)` after the sign. */
  function ParseUnsigned(u: string): Option<nat> {
    if IsDigitGroups(u) then
      var d := DropUnderscores(u);
      assert forall i :: 0 <= i < |d| ==> IsDigit(d[i]);
      Some(DigitsValue(d))
    else
      None
  }

  /** `int(str(n)) == n`. */
  lemma ParseIntToString(n: int)
    ensures ParseInt(IntToString(n)) == Some(n)
  {
    if n < 0 {
      ParseSigned(NatToString(-n));
    } else {
      ParseIntDigits(NatToString(n));
    }
  }

  /** `int("-" + d)` for a run of digits `d`. */
  lemma ParseSigned(d: string)
    requires IsDigits(d)
    ensures ParseInt("-" + d) == Some(-(DigitsValue(d) as int))
  {
    var s := "-" + d;
    SignedStrips(d);
    ParseUnsignedDigits(d);
    ParseNegative(s, DigitsValue(d));
  }

  /** A minus sign and digits have no whitespace to strip. */
  lemma SignedStrips(d: string)
    requires IsDigits(d)
    ensures Strip("-" + d) == "-" + d && ("-" + d)[1..] == d
  {
    var s := "-" + d;
    assert s[0] == '-' && s[|s| - 1] == d[|d| - 1];
    StripNoop(s);
  }

  /** `int` of a text that `strip()` leaves alone and that starts with a minus sign. */
  lemma ParseNegative(s: string, v: nat)
    requires |s| > 0 && s[0] == '-' && Strip(s) == s && ParseUnsigned(s[1..]) == Some(v)
    ensures ParseInt(s) == Some(-(v as int))
  {
  }

  lemma ParseUnsignedDigits(d: string)
    requires IsDigits(d)
    ensures ParseUnsigned(d) == Some(DigitsValue(d))
  {
    assert IsDigitGroups(d);
    assert DropUnderscores(d) == d;
  }

  /** `int(w)` of an `isdigit()` word is its digit value. */
  lemma ParseIntDigits(w: string)
    requires IsDigits(w)
    ensures ParseInt(w) == Some(DigitsValue(w))
  {
    StripNoop(w);
    ParseUnsignedDigits(w);
  }

  /** `int(...)` raises on a string holding a character it never accepts. */
  lemma ParseIntRejects(s: string, c: char)
    requires c in s && !IsSpace(c) && !IsDigit(c) && c != '_' && c != '+' && c != '-'
    ensures ParseInt(s) == None
  {
    StripKeeps(s, c);
    var t := Strip(s);
    var i :| 0 <= i < |t| && t[i] == c;
    if |t| > 0 && (t[0] == '+' || t[0] == '-') {
      assert t[1..][i - 1] == c;
    }
  }
}

=== FILE: worker_log.dfy ===
/**
 * The progress lines the scraper prints while it extracts listings. The
 * scraper's side of the model records them as `Line` values; `Render` gives
 * each one as the web app's `readline()` returns it, line break included.
 * A message printed with a leading line break reaches the reader as an
 * empty line followed by the text, so it is two `Line`s.
 */
module WorkerLog {
  import opened Text
  import opened Listings

  datatype Line =
    | Found(found: nat, selector: string)  // a container selector matched `found` elements
    | Fallback                              // no selector matched; the div scan starts
    | Containers(count: nat)                // the number of containers to be processed
    | Blank                                 // the empty line before each container's progress line
    | Processing(index: nat, count: nat)    // container `index` of `count` is being read
    | Property(kept: nat, listing: Listing) // the `kept`-th listing passed the gate
    | Skipped(index: nat)                   // container `index` failed the gate

  /** The line's text without its line break. */
  function Content(line: Line): string {
    match line
    case Found(n, selector) => "\U{2705} Found " + NatToString(n) + " properties using selector: " + selector
    case Fallback => FallbackText
    case Containers(n) => "\U{1F4CB} Total property containers found: " + NatToString(n)
    case Blank => ""
    case Processing(i, n) => ProcessingText(i, n)
    case Property(k, l) => PropertyText(k, l)
    case Skipped(i) => "\U{23ED}\U{FE0F} Skipped property " + NatToString(i) + " (insufficient data)"
  }

  /** The fallback announcement, written in short pieces so that its characters can be read off one by one. */
  const FallbackText := "\U{1F50D} Fallback Method: " + "Looking for any divs " + "with property-like content..."

  function ProcessingText(i: nat, count: nat): string {
    "\U{1F3E0} Processing property " + NatToString(i) + "/" + NatToString(count) + "..."
  }

  /** The four displayed fields after the running count, separated by a spaced bar. */
  function PropertyText(k: nat, l: Listing): string {
    "\U{2705} Property " + NatToString(k) + ": " + l.price + " | " + l.address + " | " + l.beds + " | " + l.baths
  }

  /** What the reader receives for a line. */
  function Render(line: Line): string {
    Content(line) + "\n"
  }

  /** The reader's view of a whole log. */
  function RenderAll(lines: seq<Line>): (out: seq<string>)
    ensures |out| == |lines|
    ensures forall i :: 0 <= i < |lines| ==> out[i] == Render(lines[i])
  {
    seq(|lines|, i requires 0 <= i < |lines| => Render(lines[i]))
  }

  /** The two lines printed as a container's processing starts. */
  function ProcessingLines(i: nat, count: nat): seq<Line> {
    [Blank, Processing(i, count)]
  }
}

=== FILE: wrappers.dfy ===
/**
 * The optional-value datatype used throughout the model: a selector that
 * raised, a regular-expression search that found nothing, an `int(...)`
 * that raised and a sheet URL that was never set are all `None`.
 */
module Wrappers {

  datatype Option<+T> = None | Some(value: T) {

    /** The value in `Some`, or `default` for `None`. */
    function GetOr(default: T): T {
      match this
      case Some(v) => v
      case None => default
    }
  }
}
